=== FILE: README.md ===
# inspeqtor process sampler: a Dafny model

This project models the parsing and normalisation core of inspeqtor's
process sampler (`metrics/process.go`). Given what a `Collect(pid)` call
observes, the model computes the ordered log of `save(family, metric, value)`
calls it issues and how it ends. What it observes is whether the proc root
exists, the lines of `ps` output, and the lines of `/proc/<pid>/status` and
`/proc/<pid>/stat`. A call ends by returning nil, by returning an error, or
with a Go runtime panic.

Modules:

- `FixedWidth`: Go's int64 and uint64 arithmetic with explicit wrap-around.
- `Text`: decimal digits and `strings.Fields`, splitting on Unicode white space.
- `Strconv`: `strconv.ParseInt(s, 10, 64)` and `strconv.ParseUint(s, 10, bitSize)`.
  - Both follow Go's digit loop and range cutoffs.
  - `ParseInt` errors carry Go's `NumError` (function, input, cause); `ParseUint` results carry only the cause, since the sampler discards them.
- `Duration`: the `timeRegexp` pattern `\A(\d+):(\d\d).(\d\d)\z`, written as a matcher for that one pattern.
  - Also the conversion of a match to ticks of 1/100 second.
- `Store`: the six metric keys and the declarations `NewProcessStore` makes.
  - A save is modelled as one entry appended to a log.
- `Sampling`: the outcome of a capture (its saves and status).
  - Sequencing of captures: stop at the first error.
  - The per-line loop `for _, line := range lines`.
- `Process`: `capturePs`, `captureCpu`, `captureVm` and `Collect`.
  - `Collect` is a pure function over an environment record.
- `ProcessProperties`: properties of the loops and of `Collect` as a whole.
- `Scenarios`: concrete and rendered-input instances, including the kernel status line the tests use.

The model follows the code in these places:

- Go panics are an outcome, `Panicked(IndexOutOfRange(index, length))`, not a precondition. Three places can panic, each only when it reaches an index that is missing, after every earlier field was accepted:
  - `capturePs` panics with fewer than two output lines. It also panics when field 0 is missing, when field 1 is missing after field 0 parsed, when field 2 is missing after both memory fields parsed, or when field 3 is missing after field 2 matched.
  - `captureCpu` panics on a line with fewer than 17 fields, but only when every field from 13 up to the missing one parsed. A bad field before that is returned as an error.
  - `captureVm` panics on an empty line, and on a recognised line with no value field.
- `captureVm` tests `line[0] == 'V'` before splitting the line into fields.
  - So a `VmRSS:` label preceded by blanks is ignored.
- The pattern's unescaped `.` matches any character except a newline, as RE2's `.` does without the `s` flag.
  - Seconds above 59 are accepted.
  - Minutes beyond 32 bits are saturated to 2^32-1, because `ParseUint(…, 10, 32)` returns that on a range error and the error is discarded.
- The capture saves `cpu.user` and `cpu.system` only when both time fields match.
  - When either field fails to match, neither counter is saved and the capture returns nil.
  - This is stricter than "leave that counter unset": the code returns before the user time is looked at.
- `captureCpu` treats every line of the stat file as a record.
  - The code loops over all lines, not just one.
- `system = total - user` is computed in uint64 and converted to int64.
  - Ticks never exceed 2^63 because minutes are at most 2^32-1. So the result is the exact signed difference, even when user exceeds total.
- `1024*val` is computed in int64.
  - It wraps on overflow, and it is still a multiple of 1024.

## Model

| member | source | states |
|---|---|---|
| `FixedWidth.Int64` | metrics/process.go:119-120 | the int64 value of an arithmetic result: in range, congruent modulo 2^64, and unchanged when already in range |
| `FixedWidth.Uint64` | metrics/process.go:106 | the uint64 value of an arithmetic result: in range, congruent modulo 2^64, and unchanged when already in range |
| `FixedWidth.KibiWrap` | metrics/process.go:90 | `1024*val` in int64 is always a multiple of 1024 and is the exact product when that fits |
| `FixedWidth.SignedDifference` | metrics/process.go:120 | for values below 2^63, `int64(a-b)` computed in uint64 is the exact signed difference |
| `Text.Fields` | metrics/process.go:84 | `strings.Fields` yields non-empty fields without white space whose concatenation is the input with the white space removed |
| `Text.FieldsOfJoinWords` | metrics/process.go:137 | splitting words joined by single spaces gives back exactly those words |
| `Text.FieldsAfterWord` | metrics/process.go:176 | a word followed by white space is the first field, and the rest is split independently |
| `Text.FieldsSkipsLeadingSpace` | metrics/process.go:176 | leading white space does not change the fields |
| `Text.FieldsOfWordStart` | metrics/process.go:175-177 | a line that starts with a non-space character has as first field its longest space-free prefix |
| `Strconv.ParseUint` | metrics/process.go:102-104 | success exactly on non-empty digit strings whose value fits the bit size, with that value; an overflow yields the maximum with a range error, and a syntax error yields 0 |
| `Strconv.ParseInt` | metrics/process.go:85 | success exactly on optionally signed decimal literals whose value fits in int64, with that value; an error names ParseInt and the input, a syntax error only for non-literals and a range error for every literal out of range |
| `Strconv.ParseFormatInt` | metrics/process.go:138-153 | every int64 rendered in decimal parses back to itself |
| `Duration.MatchTime` | metrics/process.go:13 | every match has groups of 1+ digits, 2 digits, a non-newline character and 2 digits |
| `Duration.MatchTimeSound` | metrics/process.go:13 | a match reassembles to exactly the text matched, so nothing precedes or follows it |
| `Duration.MatchTimeComplete` | metrics/process.go:13 | every well-formed token is matched, with its own groups |
| `Duration.MatchTimeIff` | metrics/process.go:13 | a token matches with given groups if and only if the groups are well formed and render to the token |
| `Duration.Uint32IgnoringError` | metrics/process.go:102-104 | discarding ParseUint's 32-bit error saturates the value at 2^32-1 |
| `Duration.MatchTicks` | metrics/process.go:106 | the uint64 tick sum of a match stays below 2^63 |
| `Duration.DurationTicks` | metrics/process.go:97-106 | a field has ticks exactly when it matches the pattern, and they are below 2^63 |
| `Duration.DurationTicksValue` | metrics/process.go:102-106 | the ticks of a match are minutes*6000 + seconds*100 + centiseconds, with minutes saturated at 2^32-1 |
| `Duration.ClockTextTicks` | metrics/process.go:113-117 | a rendered time `m:ss?cc` with any non-newline separator gives m*6000 + ss*100 + cc ticks, seconds up to 99 included |
| `Store.KeyNamesDistinct` | metrics/process.go:27-32 | no two metric keys share both a family name and a metric name |
| `Store.ProcessDeclarations` | metrics/process.go:27-32 | exactly the gauges memory.rss and memory.vsz (no aggregator, shown in MB) and exactly the counters cpu.user, cpu.system, cpu.total_user and cpu.total_system (tick percentage, shown as percent), with no key declared twice |
| `Store.KindOf` | metrics/process.go:27-32 | the kind returned for a key is the kind it was declared with |
| `Sampling.Then` | metrics/process.go:50-63 | a second step runs only after the first returned nil; an error ends everything with the earlier saves kept |
| `Sampling.ThenAssoc` | metrics/process.go:54-63 | chaining steps does not depend on grouping |
| `Sampling.RunLines` | metrics/process.go:136 | the loop returns nil exactly when every line's step does, and otherwise ends with the status of the first line whose step does not |
| `Sampling.RunLinesAppend` | metrics/process.go:136 | looping over two blocks of lines is looping over the first, then the second |
| `Sampling.FirstStop` | metrics/process.go:136-141 | the first line whose step does not return nil; every earlier line returned nil |
| `Sampling.RunLinesStops` | metrics/process.go:136-153 | the loop returns nil exactly when no line stops it; otherwise it ends with the error of the first line that does, after the saves of all earlier lines |
| `Process.Bytes` | metrics/process.go:90-95 | `1024*val` in int64 is an int64 multiple of 1024, exact when the product fits |
| `Process.ParseField` | metrics/process.go:85-88 | a field parses exactly when it is an int64 literal, with its value; otherwise the strconv error for that field is returned |
| `Process.MemoryField` | metrics/process.go:85-95 | a missing field panics; a literal is saved to the gauge in bytes; anything else fails with its error and no save |
| `Process.CpuTimes` | metrics/process.go:97-122 | a missing field 2, or a missing field 3 after field 2 matched, panics, and no CPU error is ever returned; user and system are saved together, in that order, exactly when both times match, and otherwise nothing is saved |
| `Process.CpuTimesSaves` | metrics/process.go:119-120 | with tick counts below 2^63 the saved values are the user ticks and exactly total minus user, even when user exceeds total |
| `Process.PsCpu` | metrics/process.go:97-122 | on the fields of line 1, both times must match for user and system ticks to be saved; otherwise nothing is saved and no error is returned; a missing field 2, or a missing field 3 after field 2 matched, panics |
| `Process.PsMemory` | metrics/process.go:84-95 | rss then vsz are saved in bytes; a bad rss fails with no save; a bad vsz fails after rss was saved |
| `Process.CapturePs` | metrics/process.go:84-120 | fewer than two output lines panic; saves follow the order rss, vsz, user, system |
| `Process.CapturePsMemory` | metrics/process.go:84-95 | rss is saved iff field 0 is an int64 literal, and vsz iff field 1 is too, each as 1024 times its value; a bad field is the error returned |
| `Process.CapturePsCpu` | metrics/process.go:97-122 | with both memory fields valid, the capture returns nil exactly when field 2 exists and either does not match or field 3 exists; four saves iff both times match, user = user ticks and system = total - user ticks |
| `Process.FirstValues` | metrics/process.go:138-153 | results 13 to 16 are taken in order; the outcome is a panic at the first missing index, or the error of the first failing result, every earlier one having succeeded |
| `Process.StatValues` | metrics/process.go:138-153 | fields 13 to 16 give their values exactly when all exist and are int64 literals; otherwise a panic at the first missing index, or the strconv error of the first non-literal field, every earlier field being a literal |
| `Process.CpuFields` | metrics/process.go:137-157 | a stat line saves fields 13, 14, 15 and 16 unchanged to user, system, total_user and total_system, in that order, iff all four parse; otherwise nothing is saved, and the outcome is a panic at the first missing index or the error of the first non-literal field |
| `Process.CaptureCpu` | metrics/process.go:136-158 | returns nil exactly when every stat line has fields 13 to 16 as int64 literals; otherwise the outcome is that of the first line that does not |
| `Process.LabelMetric` | metrics/process.go:177-189 | exactly `VmRSS:` and `VmSize:` are labels, saved to memory.rss and memory.vsz respectively |
| `Process.Recognized` | metrics/process.go:175-178 | a recognised line starts with `V`, and its leading word, with no blank before it, is `VmRSS:` or `VmSize:` |
| `Process.VmLine` | metrics/process.go:175-190 | an empty line panics; a line not starting with V or with another first field saves nothing; VmRSS:/VmSize: save 1024 times field 1 to rss/vsz, panic without field 1, and fail on a non-literal |
| `Process.CaptureVm` | metrics/process.go:174-193 | returns nil exactly when no status line is empty and every recognised line has an int64 value; otherwise the outcome is that of the first line that does not |
| `Process.Collect` | metrics/process.go:39-67 | a probe error is returned with nothing saved; nil only when every source needed was read; the `ps` path saves in the order rss, vsz, user, system |
| `ProcessProperties.FourPerLine` | metrics/process.go:136-158 | a loop that saves four values per successful line saves them line after line |
| `ProcessProperties.StatSavesEveryLine` | metrics/process.go:136-158 | when `captureCpu` returns nil, saves 4k..4k+3 are the four counters of stat line k |
| `ProcessProperties.StatStopsAtBadLine` | metrics/process.go:138-153 | the first bad stat line ends the capture with its error or panic, after exactly the four saves of each earlier line |
| `ProcessProperties.OnePerKeptLine` | metrics/process.go:174-193 | a loop that saves one value per kept line and none elsewhere saves one per kept line, in order |
| `ProcessProperties.StatusSavesRecognizedLines` | metrics/process.go:174-193 | when `captureVm` returns nil, there is one save per recognised line, in file order, of 1024 times its value to the gauge its label names |
| `ProcessProperties.StatusIgnoresOtherLines` | metrics/process.go:175-177 | a non-empty unrecognised status line can be removed without changing the capture |
| `ProcessProperties.PsSavesWellTyped` | metrics/process.go:90-120 | every `ps` save is an int64, and every memory save is a multiple of 1024 |
| `ProcessProperties.StatusSavesWellTyped` | metrics/process.go:183-189 | every status save is an int64 multiple of 1024 to a gauge |
| `ProcessProperties.CpuFieldsWellTyped` | metrics/process.go:154-157 | every stat save is an int64 to a counter |
| `ProcessProperties.StatSavesWellTyped` | metrics/process.go:154-157 | every save of `captureCpu` is an int64 to a counter |
| `ProcessProperties.CollectSavesWellTyped` | metrics/process.go:39-67 | whatever the environment, every save goes to a declared key with an int64 value, and memory saves are in bytes |
| `ProcessProperties.PsMemoryFirst` | metrics/process.go:90-120 | on the `ps` path no memory save follows a CPU save |
| `ProcessProperties.StatusSavesMemory` | metrics/process.go:183-189 | `captureVm` saves only memory gauges |
| `ProcessProperties.CpuFieldsCpu` | metrics/process.go:154-157 | a stat line saves only CPU counters |
| `ProcessProperties.StatSavesCpu` | metrics/process.go:154-157 | `captureCpu` saves only CPU counters |
| `ProcessProperties.CollectMemoryBeforeCpu` | metrics/process.go:47-63 | on either path, once a CPU counter has been saved every later save is a CPU counter |
| `ProcessProperties.CollectWithoutProcRoot` | metrics/process.go:47-53 | without a proc root only the `ps` output matters, and total_user and total_system are never saved |
| `ProcessProperties.CollectWithProcRoot` | metrics/process.go:54-63 | with a proc root the `ps` output is never consulted, and the stat file matters only after the status capture returned nil |
| `ProcessProperties.CollectPropagatesErrors` | metrics/process.go:39-67 | probe and read errors are returned unchanged; the outcome of `capturePs`, of `captureVm` when it does not return nil, and of `captureCpu` after it, is the outcome of `Collect`, with the earlier saves kept; `Collect` returns nil exactly when every step it ran did |
| `Scenarios.DurationPlain` | metrics/process.go:13 | `0:05.00` is 500 ticks |
| `Scenarios.DurationSecondsAbove59` | metrics/process.go:13 | `1:75.00` is accepted as 13500 ticks |
| `Scenarios.DurationAnySeparator` | metrics/process.go:13 | `12:00x07` is accepted as 72007 ticks, since the `.` is unescaped |
| `Scenarios.DurationRejectsShortSeconds` | metrics/process.go:13 | `0:5.00` does not match |
| `Scenarios.DurationRejectsLetterMinutes` | metrics/process.go:13 | `a:05.00` does not match |
| `Scenarios.ParseRendered` | metrics/process.go:85 | a rendered natural number up to 2^63-1 parses back to itself |
| `Scenarios.MemoryFieldRendered` | metrics/process.go:85-90 | a rendered KB figure is saved as 1024 times itself |
| `Scenarios.PsMemoryRendered` | metrics/process.go:84-95 | rendered rss and vsz figures are saved in bytes, in that order |
| `Scenarios.PsCpuTicks` | metrics/process.go:97-120 | matching total and user times save user ticks and total minus user ticks |
| `Scenarios.PsFromFields` | metrics/process.go:84-120 | a `ps` line with valid fields yields exactly the four saves rss, vsz, user, system |
| `Scenarios.PsRendered` | metrics/process.go:84-120 | a rendered `ps` line of four words yields exactly the four saves rss, vsz, user, system |
| `Scenarios.StatusLineRendered` | metrics/process.go:174-189 | `VmRSS:`/`VmSize:`, white space, a KB figure and a unit save 1024 times the figure to rss/vsz |
| `Scenarios.StatusLineOfKernel` | metrics/process_test.go:54 | the status line `VmRSS:\t  324072 kB` saves 324072*1024 to memory.rss |
| `Scenarios.StatLineOfIntegers` | metrics/process.go:136-157 | a stat line whose fields 13 to 16 parse saves those four values, in order |
| `Scenarios.StatLineRendered` | metrics/process.go:136-157 | a rendered stat line saves its fields 13 to 16 as user, system, total_user, total_system |

## Left out

- Running `ps`, `ioutil.ReadFile`, `util.FileExists` and `util.ReadLines` are I/O. Their results are fields of `Process.Env`: an existence flag or error, and the lines read or an error.
  - The path built from the proc root and the pid is not modelled.
  - `CollectProcess`, which the tests call, is not part of this model.
- `util.Debug` only logs, so the model leaves it out.
- The store's internals are not part of this model, because their code is not among the modelled files. Saves are a log:
  - the store structure and `fill`;
  - `Get`;
  - the transforms `tickPercentage`, `displayInMB` and `displayPercent`.
- The CPU percentages the tests expect (metrics/process_test.go:39-40, 67-68 and 96-97) depend on those transforms, so they are not stated.
- The tests that call `CollectProcess` on the running process and on pid -1 with the root `/etc/proc` (metrics/process_test.go:101-124) depend on the host.
- `Text.Fields` works on characters, while Go's `strings.Fields` decodes UTF-8 bytes. Invalid UTF-8 is not modelled.
- `Strconv.ParseUint` covers only the bit sizes 32 and 64 the sampler uses. Base prefixes and underscores are not modelled, since base 10 accepts neither.
- The optional initial values of `NewProcessStore` (metrics/process.go:33-35) go to the store's `fill`, which is left out.

=== FILE: duration.dfy ===
/** The compact CPU-time format printed by `ps` (`minutes:seconds.centiseconds`)
    and its conversion to ticks of 1/100 second. */
module Duration {
  import opened Wrappers
  import opened FixedWidth
  import opened Text
  import Strconv

  /** The three capture groups of the pattern `\A(\d+):(\d\d).(\d\d)\z`,
      together with the one character its unescaped `.` matched. */
  datatype TimeMatch = TimeMatch(minutes: string, seconds: string, sep: char, centis: string)

  /** What the pattern demands of its groups: one or more digits, exactly two
      digits, any character except a newline (RE2's `.` without the `s` flag),
      exactly two digits. Seconds above 59 are not excluded. */
  predicate WellFormed(g: TimeMatch) {
    && g.minutes != [] && AllDigits(g.minutes)
    && |g.seconds| == 2 && AllDigits(g.seconds)
    && g.sep != '\n'
    && |g.centis| == 2 && AllDigits(g.centis)
  }

  /** The text a match was taken from. */
  function Render(g: TimeMatch): string {
    g.minutes + ":" + g.seconds + [g.sep] + g.centis
  }

  /** `timeRegexp.FindStringSubmatch(s)`. The pattern is anchored at both
      ends and minutes cannot contain `:`, so a match, when there is one,
      puts the colon six characters from the end. */
  function MatchTime(s: string): (r: Option<TimeMatch>)
    ensures r.Some? ==> WellFormed(r.value)
  {
    if |s| < 7 then None
    else
      var k := |s| - 6;
      if && s[k] == ':' && AllDigits(s[..k])
         && IsDigit(s[k + 1]) && IsDigit(s[k + 2])
         && s[k + 3] != '\n'
         && IsDigit(s[k + 4]) && IsDigit(s[k + 5])
      then
        Some(TimeMatch(s[..k], s[k + 1..k + 3], s[k + 3], s[k + 4..]))
      else None
  }

  /** A match gives back the text it was taken from. */
  lemma MatchTimeSound(s: string)
    ensures MatchTime(s).Some? ==> Render(MatchTime(s).value) == s
  {
    if MatchTime(s).Some? {
      var k := |s| - 6;
      assert s == s[..k] + [s[k]] + s[k + 1..k + 3] + [s[k + 3]] + s[k + 4..];
    }
  }

  /** Every well-formed token is matched, with exactly its own groups. */
  lemma MatchTimeComplete(g: TimeMatch)
    requires WellFormed(g)
    ensures MatchTime(Render(g)) == Some(g)
  {
    var s := Render(g);
    var k := |g.minutes|;
    assert |s| == k + 6;
    assert s[..k] == g.minutes;
    assert s[k] == ':';
    assert s[k + 1..k + 3] == g.seconds;
    assert s[k + 3] == g.sep;
    assert s[k + 4..] == g.centis;
  }

  /** A token is accepted iff it is minutes, a colon, two digits, any
      non-newline character and two digits, with nothing before or after. */
  lemma MatchTimeIff(s: string, g: TimeMatch)
    ensures MatchTime(s) == Some(g) <==> WellFormed(g) && Render(g) == s
  {
    MatchTimeSound(s);
    if WellFormed(g) && Render(g) == s {
      MatchTimeComplete(g);
    }
  }

  /** `strconv.ParseUint(digits, 10, 32)` with its error discarded, as the
      sampler does: a value beyond 32 bits comes back as 2^32-1. */
  function Uint32IgnoringError(digits: string): (v: nat)
    requires digits != [] && AllDigits(digits)
    ensures v == Min(DigitsValue(digits), MaxUint32)
  {
    Strconv.ParseUint(digits, 32).value
  }

  function Min(a: int, b: int): int {
    if a <= b then a else b
  }

  /** The ticks of a match, computed in uint64 as minutes*60*100 +
      seconds*100 + centiseconds; the sum never wraps and stays below 2^63. */
  function MatchTicks(g: TimeMatch): (t: nat)
    requires WellFormed(g)
    ensures t < Pow63
  {
    var m := Uint32IgnoringError(g.minutes);
    var sec := Uint32IgnoringError(g.seconds);
    var cs := Uint32IgnoringError(g.centis);
    assert sec < 100 && cs < 100 by {
      TwoDigitsValue(g.seconds);
      TwoDigitsValue(g.centis);
    }
    Uint64(m * 60 * 100 + sec * 100 + cs)
  }

  /** A `ps` time field converted to ticks, or None when it does not match. */
  function DurationTicks(s: string): (r: Option<nat>)
    ensures r.Some? <==> MatchTime(s).Some?
    ensures r.Some? ==> r.value < Pow63
  {
    match MatchTime(s)
    case None => None
    case Some(g) => Some(MatchTicks(g))
  }

  /** A token converts to minutes*6000 + seconds*100 + centiseconds ticks,
      with minutes saturated at 2^32-1, exactly when it matches. */
  lemma DurationTicksValue(s: string)
    ensures MatchTime(s).None? <==> DurationTicks(s).None?
    ensures MatchTime(s).Some? ==> var g := MatchTime(s).value;
      DurationTicks(s) == Some(Min(DigitsValue(g.minutes), MaxUint32) * 6000
                               + DigitsValue(g.seconds) * 100 + DigitsValue(g.centis))
  {
    if MatchTime(s).Some? {
      var g := MatchTime(s).value;
      TwoDigitsValue(g.seconds);
      TwoDigitsValue(g.centis);
    }
  }

  /** Two digits with a leading zero, as `ps` prints seconds and centiseconds. */
  function TwoDigits(n: nat): (s: string)
    requires n < 100
    ensures |s| == 2 && AllDigits(s) && DigitsValue(s) == n
  {
    var s := [DigitChar(n / 10), DigitChar(n % 10)];
    TwoDigitsValue(s);
    s
  }

  /** The time `ps` prints for m minutes, sec seconds and cs centiseconds,
      with any separator before the centiseconds. */
  function ClockText(m: nat, sec: nat, sep: char, cs: nat): string
    requires sec < 100 && cs < 100
  {
    FormatNat(m) + ":" + TwoDigits(sec) + [sep] + TwoDigits(cs)
  }

  /** A printed time converts to m*6000 + sec*100 + cs ticks, with minutes
      saturated at 2^32-1; seconds up to 99 are taken as they are. */
  lemma ClockTextTicks(m: nat, sec: nat, sep: char, cs: nat)
    requires sec < 100 && cs < 100 && sep != '\n'
    ensures DurationTicks(ClockText(m, sec, sep, cs)) == Some(Min(m, MaxUint32) * 6000 + sec * 100 + cs)
  {
    var g := TimeMatch(FormatNat(m), TwoDigits(sec), sep, TwoDigits(cs));
    assert Render(g) == ClockText(m, sec, sep, cs);
    MatchTimeComplete(g);
  }
}

=== FILE: fixed_width.dfy ===
/** Go's fixed-width integers, written out over Dafny's unbounded `int`. */
module FixedWidth {

  const Pow32: int := 0x1_0000_0000
  const Pow63: int := 0x8000_0000_0000_0000
  const Pow64: int := 0x1_0000_0000_0000_0000

  const MaxUint32: int := Pow32 - 1
  const MaxUint64: int := Pow64 - 1
  const MinInt64: int := -Pow63
  const MaxInt64: int := Pow63 - 1

  predicate InInt64(x: int) {
    MinInt64 <= x <= MaxInt64
  }

  /** The value an `int64` holds after an arithmetic result `x` wraps around
      (two's complement): the unique int64 congruent to `x` modulo 2^64. */
  function Int64(x: int): (r: int)
    ensures InInt64(r)
    ensures (x - r) % Pow64 == 0
    ensures InInt64(x) ==> r == x
  {
    (x + Pow63) % Pow64 - Pow63
  }

  /** The value a `uint64` holds after an arithmetic result `x` wraps around. */
  function Uint64(x: int): (r: int)
    ensures 0 <= r <= MaxUint64
    ensures (x - r) % Pow64 == 0
    ensures 0 <= x <= MaxUint64 ==> r == x
  {
    x % Pow64
  }

  /** Multiplying an int64 by 1024 with wrap-around always yields a multiple
      of 1024, and yields the exact product when that product fits. */
  lemma KibiWrap(v: int)
    ensures Int64(1024 * v) % 1024 == 0
    ensures InInt64(1024 * v) ==> Int64(1024 * v) == 1024 * v
  {
    var r := Int64(1024 * v);
    var k := (1024 * v - r) / Pow64;
    assert 1024 * v - r == k * Pow64;
    assert r == 1024 * (v - k * 0x40_0000_0000_0000);
  }

  /** Converting the wrapped uint64 difference of two values below 2^63 to
      int64 gives back their exact (possibly negative) difference. */
  lemma SignedDifference(a: int, b: int)
    requires 0 <= a < Pow63 && 0 <= b < Pow63
    ensures Int64(Uint64(a - b)) == a - b
  {
    var u := Uint64(a - b);
    var r := Int64(u);
    assert InInt64(a - b);
    assert ((a - b) - r) % Pow64 == 0 by {
      var k1 := ((a - b) - u) / Pow64;
      var k2 := (u - r) / Pow64;
      assert (a - b) - u == k1 * Pow64;
      assert u - r == k2 * Pow64;
      assert (a - b) - r == (k1 + k2) * Pow64;
    }
  }
}

=== FILE: process.dfy ===
/** The process sampler: `Collect` and the three parsers it dispatches to,
    each a pure function from the text it reads to the saves it issues. */
module Process {
  import opened Wrappers
  import opened FixedWidth
  import opened Text
  import opened Strconv
  import opened Duration
  import opened Store
  import opened Sampling

  /** `1024*val` evaluated in int64: kibibytes to bytes. The result is always
      a multiple of 1024, and is the exact product unless that overflows. */
  function Bytes(kb: int): (b: int)
    ensures InInt64(b) && b % 1024 == 0
    ensures InInt64(1024 * kb) ==> b == 1024 * kb
  {
    KibiWrap(kb);
    Int64(1024 * kb)
  }

  /** `strconv.ParseInt(token, 10, 64)` with its error as the capture's error. */
  function ParseField(token: string): (r: Result<int, Error>)
    ensures r.Ok? <==> IsInt64Literal(token)
    ensures r.Ok? ==> r.value == LiteralValue(token)
    ensures r.Err? ==> r.error.ParseError? && r.error.num.num == token
  {
    match ParseInt(token)
    case Ok(v) => Ok(v)
    case Err(e) => Err(ParseError(e))
  }

  /** Failed with the strconv error for `token`. */
  predicate FailedOn(st: Status, token: string) {
    st.Failed? && st.err.ParseError? && st.err.num.num == token
  }

  /** Parse field `i` as KB and save it, in bytes, to the memory gauge
      `key`: the step both parsers share. */
  function MemoryField(f: seq<string>, i: nat, key: Key): (r: Capture)
    ensures |f| <= i ==> r == Capture([], Panicked(IndexOutOfRange(i, |f|)))
    ensures |f| > i && IsInt64Literal(f[i]) ==>
      r == Capture([Save(key, Bytes(LiteralValue(f[i])))], Done)
    ensures |f| > i && !IsInt64Literal(f[i]) ==> r.saves == [] && FailedOn(r.status, f[i])
  {
    if |f| <= i then Capture([], Panicked(IndexOutOfRange(i, |f|)))
    else match ParseField(f[i])
    case Err(e) => Capture([], Failed(e))
    case Ok(kb) => Capture([Save(key, Bytes(kb))], Done)
  }

  // ---------------------------------------------------------------------
  // Fallback: `ps So rss,vsz,time,utime -p <pid>`
  // ---------------------------------------------------------------------

  /** The keys the fallback saves, in the order it saves them. */
  const PsOrder: seq<Key> := [MemoryRss, MemoryVsz, CpuUser, CpuSystem]

  /** The ticks of field `i`, when there is such a field and it matches. */
  function TicksAt(f: seq<string>, i: nat): Option<nat> {
    if i < |f| then DurationTicks(f[i]) else None
  }

  /** The CPU half of `capturePs`, given the number of fields and the ticks
      of fields 2 (the total) and 3 (the user time): a missing field panics,
      a time that does not match ends the capture with nil and no CPU save,
      and otherwise user and system are saved together, system being the
      total less the user time computed in uint64 and converted to int64. */
  function CpuTimes(n: nat, total: Option<nat>, user: Option<nat>): (r: Capture)
    ensures !r.status.Failed?
    ensures r.status.Panicked? <==> n < 3 || (total.Some? && n < 4)
    ensures |r.saves| == 2 <==> n >= 4 && total.Some? && user.Some?
    ensures |r.saves| != 2 ==> r.saves == []
    ensures |r.saves| == 2 ==> r.status.Done? && r.saves[0].key == CpuUser && r.saves[1].key == CpuSystem
  {
    if n < 3 then Capture([], Panicked(IndexOutOfRange(2, n)))
    else match total
    case None => Capture([], Done)
    case Some(ticks) =>
      if n < 4 then Capture([], Panicked(IndexOutOfRange(3, n)))
      else match user
      case None => Capture([], Done)
      case Some(uticks) =>
        Capture([Save(CpuUser, Int64(uticks)),
                 Save(CpuSystem, Int64(Uint64(ticks - uticks)))], Done)
  }

  /** With tick counts below 2^63, as the time pattern guarantees, the
      saved values are the user ticks and the exact difference: nothing
      wraps around, even when the user time exceeds the total. */
  lemma CpuTimesSaves(n: nat, total: Option<nat>, user: Option<nat>)
    requires total.Some? ==> total.value < Pow63
    requires user.Some? ==> user.value < Pow63
    ensures var r := CpuTimes(n, total, user);
      |r.saves| == 2 ==>
        r == Capture([Save(CpuUser, user.value), Save(CpuSystem, total.value - user.value)], Done)
  {
    if n >= 4 && total.Some? && user.Some? {
      SignedDifference(total.value, user.value);
    }
  }

  /** The CPU half of `capturePs` on the fields of line 1. Both CPU times
      must match the time pattern for anything to be saved; when one does
      not, the capture still returns nil. */
  function PsCpu(f: seq<string>): (r: Capture)
    ensures !r.status.Failed?
    ensures r.status.Done? ==> |f| >= 3
    ensures |r.saves| == 2 <==> |f| >= 4 && DurationTicks(f[2]).Some? && DurationTicks(f[3]).Some?
    ensures |r.saves| != 2 ==> r.saves == []
    ensures |r.saves| == 2 ==>
      r == Capture([Save(CpuUser, DurationTicks(f[3]).value),
                    Save(CpuSystem, DurationTicks(f[2]).value - DurationTicks(f[3]).value)], Done)
  {
    CpuTimesSaves(|f|, TicksAt(f, 2), TicksAt(f, 3));
    CpuTimes(|f|, TicksAt(f, 2), TicksAt(f, 3))
  }

  /** The memory half of `capturePs`: rss from field 0, then vsz from field
      1, each saved in bytes. A bad field stops with its error, and when vsz
      is the bad one rss stays saved. */
  function PsMemory(f: seq<string>): (r: Capture)
    ensures |r.saves| <= 2 && forall i :: 0 <= i < |r.saves| ==> r.saves[i].key == PsOrder[i]
    ensures |r.saves| >= 1 <==> |f| >= 1 && IsInt64Literal(f[0])
    ensures |r.saves| >= 1 ==> r.saves[0].value == Bytes(LiteralValue(f[0]))
    ensures r.status.Done? <==> |f| >= 2 && IsInt64Literal(f[0]) && IsInt64Literal(f[1])
    ensures r.status.Done? ==> |r.saves| == 2 && r.saves[1].value == Bytes(LiteralValue(f[1]))
    ensures !r.status.Done? ==> |r.saves| <= 1
    ensures |f| >= 1 && !IsInt64Literal(f[0]) ==> r.saves == [] && FailedOn(r.status, f[0])
    ensures |f| >= 2 && IsInt64Literal(f[0]) && !IsInt64Literal(f[1]) ==>
      |r.saves| == 1 && FailedOn(r.status, f[1])
  {
    Then(MemoryField(f, 0, MemoryRss), MemoryField(f, 1, MemoryVsz))
  }

  /** `capturePs` on the lines of the command's output. Line 0 is the
      header; line 1 holds rss and vsz in KB, then total and user CPU time.
      Saves come in the order rss, vsz, user, system. */
  function CapturePs(lines: seq<string>): (r: Capture)
    ensures |lines| < 2 ==> r == Capture([], Panicked(IndexOutOfRange(1, |lines|)))
    ensures |r.saves| <= 4 && forall i :: 0 <= i < |r.saves| ==> r.saves[i].key == PsOrder[i]
  {
    if |lines| < 2 then Capture([], Panicked(IndexOutOfRange(1, |lines|)))
    else
      var f := Fields(lines[1]);
      Then(PsMemory(f), PsCpu(f))
  }

  /** The memory half of `capturePs`: rss and vsz are saved in bytes while
      they parse, and a bad one is an error; when vsz is the bad one, rss
      stays saved. */
  lemma CapturePsMemory(lines: seq<string>)
    requires |lines| >= 2
    ensures var r := CapturePs(lines); var f := Fields(lines[1]);
      && (r.status.Failed? ==> |r.saves| < 2)
      && (|r.saves| >= 1 <==> |f| >= 1 && IsInt64Literal(f[0]))
      && (|r.saves| >= 1 ==> r.saves[0].value == Bytes(LiteralValue(f[0])))
      && (|r.saves| >= 2 <==> |f| >= 2 && IsInt64Literal(f[0]) && IsInt64Literal(f[1]))
      && (|r.saves| >= 2 ==> r.saves[1].value == Bytes(LiteralValue(f[1])))
      && (|f| >= 1 && !IsInt64Literal(f[0]) ==> r.saves == [] && FailedOn(r.status, f[0]))
      && (|f| >= 2 && IsInt64Literal(f[0]) && !IsInt64Literal(f[1]) ==>
            |r.saves| == 1 && FailedOn(r.status, f[1]))
  {
    var f := Fields(lines[1]);
    assert CapturePs(lines) == Then(PsMemory(f), PsCpu(f));
  }

  /** The CPU half of `capturePs`: after both memory fields, the capture
      returns nil with either no CPU saves, when a CPU time does not match,
      or with user and system ticks, system being the total less the user
      time. */
  lemma CapturePsCpu(lines: seq<string>)
    requires |lines| >= 2
    ensures var r := CapturePs(lines); var f := Fields(lines[1]);
      && (r.status.Done? ==> |f| >= 3 && (|r.saves| == 2 || |r.saves| == 4))
      && (r.status.Done? ==>
            (|r.saves| == 4 <==> |f| >= 4 && DurationTicks(f[2]).Some? && DurationTicks(f[3]).Some?))
      && (|f| >= 2 && IsInt64Literal(f[0]) && IsInt64Literal(f[1]) ==>
            (r.status.Done? <==> |f| >= 3 && (DurationTicks(f[2]).None? || |f| >= 4)))
      && (|f| >= 4 && IsInt64Literal(f[0]) && IsInt64Literal(f[1]) &&
          DurationTicks(f[2]).Some? && DurationTicks(f[3]).Some? ==>
            |r.saves| == 4)
      && (|r.saves| == 4 ==>
            && r.status.Done? && |f| >= 4 && DurationTicks(f[2]).Some? && DurationTicks(f[3]).Some?
            && r.saves[2].value == DurationTicks(f[3]).value
            && r.saves[3].value == DurationTicks(f[2]).value - DurationTicks(f[3]).value)
  {
    var f := Fields(lines[1]);
    assert CapturePs(lines) == Then(PsMemory(f), PsCpu(f));
  }

  // ---------------------------------------------------------------------
  // /proc/<pid>/stat
  // ---------------------------------------------------------------------

  /** The counters fields 13 to 16 of a stat line are saved to, in order. */
  const StatMetrics: seq<Key> := [CpuUser, CpuSystem, CpuTotalUser, CpuTotalSystem]

  /** Whether the fields from `j` to 16 that exist are all int64 literals. */
  predicate StatFieldsParse(f: seq<string>, j: nat) {
    forall i :: j <= i < |f| && i <= 16 ==> IsInt64Literal(f[i])
  }

  /** Field `i` is the first of fields j..16 that is not an int64 literal. */
  predicate FirstBadField(f: seq<string>, j: nat, i: nat) {
    && j <= i < |f| && i <= 16 && !IsInt64Literal(f[i])
    && forall i' :: j <= i' < i ==> IsInt64Literal(f[i'])
  }

  /** Whether the results from `j` to 16 that exist are all values. */
  predicate AllOk(ps: seq<Result<int, Error>>, j: nat) {
    forall i :: j <= i < |ps| && i <= 16 ==> ps[i].Ok?
  }

  /** Whether the results from `j` up to, not including, `i` are all values. */
  predicate AllOkBetween(ps: seq<Result<int, Error>>, j: nat, i: nat) {
    forall i' :: j <= i' < i && i' < |ps| ==> ps[i'].Ok?
  }

  /** Take results j..16 in order, stopping at the first one that is
      missing (a panic) or an error. */
  function FirstValues(ps: seq<Result<int, Error>>, j: nat): (r: Result<seq<int>, Status>)
    requires 13 <= j <= 16
    ensures r.Ok? <==> |ps| >= 17 && AllOk(ps, j)
    ensures r.Ok? ==> (|r.value| == 17 - j &&
      forall i :: 0 <= i < |r.value| ==> ps[j + i] == Ok(r.value[i]))
    ensures r.Err? ==> !r.error.Done?
    ensures r.Err? && r.error.Panicked? <==> |ps| < 17 && AllOk(ps, j)
    ensures r.Err? && r.error.Panicked? ==>
      r.error == Panicked(IndexOutOfRange(if |ps| < j then j else |ps|, |ps|))
    ensures r.Err? && r.error.Failed? ==>
      exists i :: j <= i < |ps| && i <= 16 && ps[i] == Err(r.error.err) && AllOkBetween(ps, j, i)
    decreases 17 - j
  {
    if |ps| <= j then Err(Panicked(IndexOutOfRange(j, |ps|)))
    else match ps[j]
    case Err(e) => Err(Failed(e))
    case Ok(v) =>
      if j == 16 then Ok([v])
      else match FirstValues(ps, j + 1)
      case Err(st) => Err(st)
      case Ok(vs) => Ok([v] + vs)
  }

  /** Every field parsed; the loop body only looks at the results of fields
      13 to 16, in order. */
  function ParseFields(f: seq<string>): (ps: seq<Result<int, Error>>)
    ensures |ps| == |f| && forall i :: 0 <= i < |f| ==> ps[i] == ParseField(f[i])
  {
    seq(|f|, i requires 0 <= i < |f| => ParseField(f[i]))
  }

  /** Parse fields j..16 in order, stopping at the first one that is
      missing (a panic) or not an integer (an error). */
  function StatValues(f: seq<string>, j: nat): (r: Result<seq<int>, Status>)
    requires 13 <= j <= 16
    ensures r.Ok? <==> |f| >= 17 && StatFieldsParse(f, j)
    ensures r.Ok? ==> (|r.value| == 17 - j &&
      forall i :: 0 <= i < |r.value| ==> r.value[i] == LiteralValue(f[j + i]))
    ensures r.Err? ==> !r.error.Done?
    ensures r.Err? && r.error.Panicked? <==> |f| < 17 && StatFieldsParse(f, j)
    ensures r.Err? && r.error.Panicked? ==>
      r.error == Panicked(IndexOutOfRange(if |f| < j then j else |f|, |f|))
    ensures r.Err? && r.error.Failed? ==>
      exists i: nat :: FirstBadField(f, j, i) && FailedOn(r.error, f[i]) && r.error == Failed(ParseField(f[i]).error)
  {
    var ps := ParseFields(f);
    var r := FirstValues(ps, j);
    assert AllOk(ps, j) <==> StatFieldsParse(f, j);
    if r.Ok? then
      assert forall i :: 0 <= i < |r.value| ==> r.value[i] == LiteralValue(f[j + i]) by {
        forall i | 0 <= i < |r.value| ensures r.value[i] == LiteralValue(f[j + i]) {
          assert ps[j + i] == Ok(r.value[i]);
        }
      }
      r
    else if r.error.Failed? then
      var i :| j <= i < |ps| && i <= 16 && ps[i] == Err(r.error.err) && AllOkBetween(ps, j, i);
      assert FirstBadField(f, j, i) by {
        forall i' | j <= i' < i ensures IsInt64Literal(f[i']) {
          assert ps[i'].Ok?;
        }
      }
      assert FailedOn(r.error, f[i]) && r.error == Failed(ParseField(f[i]).error);
      r
    else
      r
  }

  /** One iteration of `captureCpu`'s loop on the fields of its line:
      fields 13, 14, 15 and 16 are parsed in that order and, only when all
      four parse, saved unchanged. */
  function CpuFields(f: seq<string>): (r: Capture)
    ensures r.status.Done? <==> |f| >= 17 && StatFieldsParse(f, 13)
    ensures r.status.Done? ==> (|r.saves| == 4 &&
      forall j :: 0 <= j < 4 ==> r.saves[j] == Save(StatMetrics[j], LiteralValue(f[13 + j])))
    ensures !r.status.Done? ==> r.saves == []
    ensures r.status.Panicked? <==> |f| < 17 && StatFieldsParse(f, 13)
    ensures r.status.Panicked? ==>
      r.status == Panicked(IndexOutOfRange(if |f| < 13 then 13 else |f|, |f|))
    ensures r.status.Failed? ==>
      exists i: nat :: FirstBadField(f, 13, i) && FailedOn(r.status, f[i]) && r.status == Failed(ParseField(f[i]).error)
  {
    match StatValues(f, 13)
    case Err(st) => Capture([], st)
    case Ok(vs) =>
      Capture([Save(CpuUser, vs[0]), Save(CpuSystem, vs[1]),
               Save(CpuTotalUser, vs[2]), Save(CpuTotalSystem, vs[3])], Done)
  }

  function CpuLine(line: string): (r: Capture)
    ensures r.status.Done? <==> CpuLineParses(line)
  {
    CpuFields(Fields(line))
  }

  /** A stat line on which `captureCpu`'s loop carries on: fields 13 to 16
      exist and are int64 literals. */
  predicate CpuLineParses(line: string) {
    |Fields(line)| >= 17 && StatFieldsParse(Fields(line), 13)
  }

  /** `captureCpu` on the lines of the stat file: it returns nil exactly
      when every line parses, and otherwise ends with the error or panic of
      the first line that does not. */
  function CaptureCpu(lines: seq<string>): (r: Capture)
    ensures r.status.Done? <==> forall k :: 0 <= k < |lines| ==> CpuLineParses(lines[k])
    ensures !r.status.Done? ==> var k := FirstStop(CpuLine, lines);
      && k < |lines| && !CpuLineParses(lines[k])
      && (forall k' :: 0 <= k' < k ==> CpuLineParses(lines[k']))
      && r.status == CpuLine(lines[k]).status
  {
    RunLines(CpuLine, lines)
  }

  // ---------------------------------------------------------------------
  // /proc/<pid>/status
  // ---------------------------------------------------------------------

  /** The recognised status labels and the gauge each one feeds: `VmRSS:`
      is saved as memory.rss and `VmSize:` as memory.vsz. */
  function LabelMetric(field: string): (k: Option<Key>)
    ensures k.Some? <==> field == "VmRSS:" || field == "VmSize:"
    ensures k.Some? ==> k.value.Family() == "memory"
    ensures k.Some? ==> k.value.Metric() == (if field == "VmRSS:" then "rss" else "vsz")
  {
    if field == "VmRSS:" then Some(MemoryRss)
    else if field == "VmSize:" then Some(MemoryVsz)
    else None
  }

  function FirstField(line: string): string {
    var items := Fields(line);
    if items == [] then [] else items[0]
  }

  /** A line `captureVm` acts on: it starts with `V` and its first field is
      a recognised label, which is then the line's own leading word. A
      label preceded by blanks is not recognised. */
  predicate Recognized(line: string)
    ensures Recognized(line) ==> line != [] && line[0] == 'V'
    ensures Recognized(line) ==> FirstField(line) == line[..WordLen(line)]
    ensures Recognized(line) ==> FirstField(line) == "VmRSS:" || FirstField(line) == "VmSize:"
  {
    line != [] && line[0] == 'V' && (FieldsOfWordStart(line); LabelMetric(FirstField(line)).Some?)
  }

  /** A status line on which `captureVm`'s loop carries on: it is not empty,
      and when recognised it has an int64 value after its label. */
  predicate VmLineParses(line: string) {
    line != [] && (Recognized(line) ==> |Fields(line)| >= 2 && IsInt64Literal(Fields(line)[1]))
  }

  /** One iteration of `captureVm`'s loop. */
  function VmLine(line: string): (r: Capture)
    ensures line == [] ==> r == Capture([], Panicked(IndexOutOfRange(0, 0)))
    ensures line != [] && !Recognized(line) ==> r == Capture([], Done)
    ensures Recognized(line) ==> var items := Fields(line);
      var key := LabelMetric(FirstField(line)).value;
      && (|items| < 2 ==> r == Capture([], Panicked(IndexOutOfRange(1, |items|))))
      && (|items| >= 2 && IsInt64Literal(items[1]) ==>
            r == Capture([Save(key, Bytes(LiteralValue(items[1])))], Done))
      && (|items| >= 2 && !IsInt64Literal(items[1]) ==> r.saves == [] && FailedOn(r.status, items[1]))
    ensures r.status.Done? <==> VmLineParses(line)
  {
    if line == [] then Capture([], Panicked(IndexOutOfRange(0, 0)))
    else if line[0] != 'V' then Capture([], Done)
    else
      var items := Fields(line);
      FieldsOfWordStart(line);
      match LabelMetric(items[0])
      case None => Capture([], Done)
      case Some(key) =>
        MemoryField(items, 1, key)
  }

  /** `captureVm` on the lines of the status file: it returns nil exactly
      when no line is empty and every recognised line carries a value, and
      otherwise ends with the error or panic of the first line that does
      not. */
  function CaptureVm(lines: seq<string>): (r: Capture)
    ensures r.status.Done? <==> forall k :: 0 <= k < |lines| ==> VmLineParses(lines[k])
    ensures !r.status.Done? ==> var k := FirstStop(VmLine, lines);
      && k < |lines| && !VmLineParses(lines[k])
      && (forall k' :: 0 <= k' < k ==> VmLineParses(lines[k']))
      && r.status == VmLine(lines[k]).status
  {
    RunLines(VmLine, lines)
  }

  // ---------------------------------------------------------------------
  // Collect
  // ---------------------------------------------------------------------

  /** What `Collect` observes of its surroundings: whether the proc root
      exists (or the error probing it), and the lines read from the `ps`
      command and from the status and stat files, or the error reading them. */
  datatype Env = Env(
    procRoot: Result<bool, Error>,
    psOutput: Result<seq<string>, Error>,
    statusFile: Result<seq<string>, Error>,
    statFile: Result<seq<string>, Error>)

  /** Read a source and parse it, returning a read error as it came. */
  function Parse(src: Result<seq<string>, Error>, parser: seq<string> -> Capture): Capture {
    match src
    case Err(e) => Capture([], Failed(e))
    case Ok(lines) => parser(lines)
  }

  /** `Collect`: without a proc root the `ps` output is parsed, otherwise
      the status file and then the stat file. It returns nil only when every
      source it needed was read, and the `ps` path saves in the order rss,
      vsz, user, system. */
  function Collect(env: Env): (r: Capture)
    ensures env.procRoot.Err? ==> r.saves == [] && r.status == Failed(env.procRoot.error)
    ensures r.status.Done? && env.procRoot == Ok(false) ==> env.psOutput.Ok?
    ensures r.status.Done? && env.procRoot == Ok(true) ==> env.statusFile.Ok? && env.statFile.Ok?
    ensures env.procRoot == Ok(false) ==>
      |r.saves| <= 4 && forall i :: 0 <= i < |r.saves| ==> r.saves[i].key == PsOrder[i]
  {
    match env.procRoot
    case Err(e) => Capture([], Failed(e))
    case Ok(false) => Parse(env.psOutput, CapturePs)
    case Ok(true) => Then(Parse(env.statusFile, CaptureVm), Parse(env.statFile, CaptureCpu))
  }
}

=== FILE: process_properties.dfy ===
/** Properties of the process sampler that relate several calls or whole
    files of input: the per-line loops, and `Collect`'s dispatch. */
module ProcessProperties {
  import opened Wrappers
  import opened FixedWidth
  import opened Text
  import opened Strconv
  import opened Store
  import opened Sampling
  import opened Process

  // ---------------------------------------------------------------------
  // The stat loop
  // ---------------------------------------------------------------------

  /** The shape of a loop whose steps each save four values on success. */
  lemma {:induction false} FourPerLine(step: string -> Capture, lines: seq<string>)
    requires forall line :: step(line).status.Done? ==> |step(line).saves| == 4
    ensures var r := RunLines(step, lines);
      r.status.Done? ==> (|r.saves| == 4 * |lines| &&
        forall k :: 0 <= k < |lines| ==>
          step(lines[k]).status.Done? && r.saves[4 * k..4 * k + 4] == step(lines[k]).saves)
    decreases |lines|
  {
    var r := RunLines(step, lines);
    if lines != [] && r.status.Done? {
      var head := step(lines[0]);
      var tail := RunLines(step, lines[1..]);
      FourPerLine(step, lines[1..]);
      assert r.saves == head.saves + tail.saves;
      forall k | 0 <= k < |lines|
        ensures step(lines[k]).status.Done? && r.saves[4 * k..4 * k + 4] == step(lines[k]).saves
      {
        if k > 0 {
          assert lines[k] == lines[1..][k - 1];
          assert r.saves[4 * k..4 * k + 4] == tail.saves[4 * (k - 1)..4 * (k - 1) + 4];
        }
      }
    }
  }

  /** When `captureCpu` returns nil, every line was saved as four counters,
      line after line: saves 4k..4k+3 are fields 13..16 of line k, unchanged. */
  lemma StatSavesEveryLine(lines: seq<string>)
    ensures var r := CaptureCpu(lines);
      r.status.Done? ==> (|r.saves| == 4 * |lines| &&
        forall k :: 0 <= k < |lines| ==>
          CpuLine(lines[k]).status.Done? && r.saves[4 * k..4 * k + 4] == CpuLine(lines[k]).saves)
  {
    forall line ensures CpuLine(line).status.Done? ==> |CpuLine(line).saves| == 4 {
    }
    FourPerLine(CpuLine, lines);
  }

  /** The first stat line that does not parse stops the loop: the saves are
      exactly the four of each line before it, and that line's error or
      panic is returned. */
  lemma StatStopsAtBadLine(lines: seq<string>)
    requires !CaptureCpu(lines).status.Done?
    ensures var k := FirstStop(CpuLine, lines);
      && k < |lines|
      && CaptureCpu(lines[..k]).status.Done?
      && CaptureCpu(lines) == Capture(CaptureCpu(lines[..k]).saves, CpuLine(lines[k]).status)
      && |CaptureCpu(lines[..k]).saves| == 4 * k
  {
    RunLinesStops(CpuLine, lines);
    var k := FirstStop(CpuLine, lines);
    StatSavesEveryLine(lines[..k]);
    assert CpuLine(lines[k]).saves == [];
    assert CaptureCpu(lines[..k]).saves + [] == CaptureCpu(lines[..k]).saves;
  }

  // ---------------------------------------------------------------------
  // The status loop
  // ---------------------------------------------------------------------

  /** The lines `keep` holds of, in order. */
  function Filter(keep: string -> bool, lines: seq<string>): (kept: seq<string>)
    ensures forall i :: 0 <= i < |kept| ==> keep(kept[i])
    decreases |lines|
  {
    if lines == [] then []
    else (if keep(lines[0]) then [lines[0]] else []) + Filter(keep, lines[1..])
  }

  /** The shape of a loop whose steps save one value on the lines `keep`
      holds of and nothing on the others. */
  lemma {:induction false} OnePerKeptLine(step: string -> Capture, keep: string -> bool, lines: seq<string>)
    requires forall line :: step(line).status.Done? ==> |step(line).saves| == (if keep(line) then 1 else 0)
    ensures var r := RunLines(step, lines); var kept := Filter(keep, lines);
      r.status.Done? ==> (|r.saves| == |kept| &&
        forall i :: 0 <= i < |kept| ==> step(kept[i]).status.Done? && step(kept[i]).saves == [r.saves[i]])
    decreases |lines|
  {
    var r := RunLines(step, lines);
    if lines != [] && r.status.Done? {
      var head := step(lines[0]);
      var tail := RunLines(step, lines[1..]);
      var kept := Filter(keep, lines);
      var tk := Filter(keep, lines[1..]);
      OnePerKeptLine(step, keep, lines[1..]);
      assert r.saves == head.saves + tail.saves;
      if keep(lines[0]) {
        assert kept == [lines[0]] + tk;
        forall i | 0 <= i < |kept|
          ensures step(kept[i]).status.Done? && step(kept[i]).saves == [r.saves[i]]
        {
          if i > 0 {
            assert kept[i] == tk[i - 1];
            assert r.saves[i] == tail.saves[i - 1];
          } else {
            assert head.saves == [head.saves[0]];
          }
        }
      } else {
        assert kept == [] + tk;
        assert r.saves == tail.saves;
      }
    }
  }

  /** The recognised lines of a status file, in order. */
  function RecognizedLines(lines: seq<string>): seq<string> {
    Filter(Recognized, lines)
  }

  /** When `captureVm` returns nil, there is one save per recognised line,
      in file order, of 1024 times the line's value to the gauge its label
      names; every other line contributed nothing. */
  lemma StatusSavesRecognizedLines(lines: seq<string>)
    ensures var r := CaptureVm(lines); var rl := RecognizedLines(lines);
      r.status.Done? ==> (|r.saves| == |rl| &&
        forall i :: 0 <= i < |rl| ==>
          |Fields(rl[i])| >= 2 && IsInt64Literal(Fields(rl[i])[1]) &&
          r.saves[i] == Save(LabelMetric(FirstField(rl[i])).value, Bytes(LiteralValue(Fields(rl[i])[1]))))
  {
    forall line ensures VmLine(line).status.Done? ==> |VmLine(line).saves| == (if Recognized(line) then 1 else 0) {
    }
    OnePerKeptLine(VmLine, Recognized, lines);
  }

  /** A non-empty line that is not recognised can be dropped from the status
      file without changing what `captureVm` does. */
  lemma StatusIgnoresOtherLines(a: seq<string>, line: string, b: seq<string>)
    requires line != [] && !Recognized(line)
    ensures CaptureVm(a + [line] + b) == CaptureVm(a + b)
  {
    RunLinesAppend(VmLine, a + [line], b);
    RunLinesAppend(VmLine, a, [line]);
    RunLinesAppend(VmLine, a, b);
    assert [line][1..] == [];
    var ra := CaptureVm(a);
    if ra.status.Done? {
      assert ra.saves + [] == ra.saves;
    }
  }

  // ---------------------------------------------------------------------
  // Collect
  // ---------------------------------------------------------------------

  /** A save the store accepts: an int64 value, and for a gauge a whole
      number of KB expressed in bytes. */
  predicate WellTypedSave(s: Save) {
    && InInt64(s.value)
    && (KindOf(s.key) == Gauge ==> s.value % 1024 == 0)
  }

  predicate AllWellTyped(saves: seq<Save>) {
    forall i :: 0 <= i < |saves| ==> WellTypedSave(saves[i])
  }

  lemma ThenWellTyped(a: Capture, b: Capture)
    requires AllWellTyped(a.saves) && AllWellTyped(b.saves)
    ensures AllWellTyped(Then(a, b).saves)
  {
    if a.status.Done? {
      var s := Then(a, b).saves;
      forall i | 0 <= i < |s| ensures WellTypedSave(s[i]) {
        if i < |a.saves| { assert s[i] == a.saves[i]; } else { assert s[i] == b.saves[i - |a.saves|]; }
      }
    }
  }

  lemma PsSavesWellTyped(lines: seq<string>)
    ensures AllWellTyped(CapturePs(lines).saves)
  {
    var r := CapturePs(lines);
    if |lines| >= 2 {
      CapturePsMemory(lines);
      CapturePsCpu(lines);
    }
    forall i | 0 <= i < |r.saves| ensures WellTypedSave(r.saves[i]) {
      assert r.saves[i].key == PsOrder[i];
    }
  }

  lemma StatusSavesWellTyped(lines: seq<string>)
    ensures AllWellTyped(CaptureVm(lines).saves)
  {
    forall line ensures AllWellTyped(VmLine(line).saves) {
    }
    RunLinesSaves(VmLine, lines, WellTypedSave);
  }

  /** Int64 values saved to counters are well typed. */
  lemma CounterSavesWellTyped(s: seq<Save>)
    requires forall i :: 0 <= i < |s| ==> InInt64(s[i].value) && !s[i].key.IsMemory()
    ensures AllWellTyped(s)
  {
  }

  lemma CpuFieldsWellTyped(f: seq<string>)
    ensures AllWellTyped(CpuFields(f).saves)
  {
    var r := CpuFields(f);
    if r.status.Done? {
      forall j | 0 <= j < 4 ensures InInt64(r.saves[j].value) && !r.saves[j].key.IsMemory() {
        assert IsInt64Literal(f[13 + j]);
        assert r.saves[j].key == StatMetrics[j];
      }
      CounterSavesWellTyped(r.saves);
    }
  }

  lemma StatSavesWellTyped(lines: seq<string>)
    ensures AllWellTyped(CaptureCpu(lines).saves)
  {
    forall line ensures AllWellTyped(CpuLine(line).saves) {
      CpuFieldsWellTyped(Fields(line));
    }
    RunLinesSaves(CpuLine, lines, WellTypedSave);
  }

  /** Whatever the environment, `Collect` saves only to keys the process
      store declared, memory to its gauges and CPU to its counters, and every
      memory reading is in bytes: 1024 times a KB figure. */
  lemma CollectSavesWellTyped(env: Env)
    ensures AllWellTyped(Collect(env).saves)
  {
    match env.procRoot {
      case Err(_) =>
      case Ok(false) =>
        if env.psOutput.Ok? {
          PsSavesWellTyped(env.psOutput.value);
        }
      case Ok(true) =>
        if env.statusFile.Ok? {
          StatusSavesWellTyped(env.statusFile.value);
        }
        if env.statFile.Ok? {
          StatSavesWellTyped(env.statFile.value);
        }
        ThenWellTyped(Parse(env.statusFile, CaptureVm), Parse(env.statFile, CaptureCpu));
    }
  }

  predicate IsMemorySave(s: Save) {
    s.key.IsMemory()
  }

  predicate IsCpuSave(s: Save) {
    !s.key.IsMemory()
  }

  /** Once a CPU counter has been saved, every later save is a CPU counter. */
  predicate MemoryFirst(s: seq<Save>) {
    forall i, j :: 0 <= i < j < |s| && IsCpuSave(s[i]) ==> IsCpuSave(s[j])
  }

  /** Saves in the fallback's order put memory first. */
  lemma PsOrderMemoryFirst(s: seq<Save>)
    requires |s| <= 4 && forall i :: 0 <= i < |s| ==> s[i].key == PsOrder[i]
    ensures MemoryFirst(s)
  {
    forall i, j | 0 <= i < j < |s| && IsCpuSave(s[i]) ensures IsCpuSave(s[j]) {
      assert s[i].key == PsOrder[i];
      assert s[j].key == PsOrder[j];
    }
  }

  lemma PsMemoryFirst(lines: seq<string>)
    ensures MemoryFirst(CapturePs(lines).saves)
  {
    PsOrderMemoryFirst(CapturePs(lines).saves);
  }

  lemma StatusSavesMemory(lines: seq<string>)
    ensures forall i :: 0 <= i < |CaptureVm(lines).saves| ==> IsMemorySave(CaptureVm(lines).saves[i])
  {
    forall line ensures forall i :: 0 <= i < |VmLine(line).saves| ==> IsMemorySave(VmLine(line).saves[i]) {
    }
    RunLinesSaves(VmLine, lines, IsMemorySave);
  }

  lemma CpuFieldsCpu(f: seq<string>)
    ensures forall i :: 0 <= i < |CpuFields(f).saves| ==> IsCpuSave(CpuFields(f).saves[i])
  {
    var r := CpuFields(f);
    if r.status.Done? {
      forall j | 0 <= j < 4 ensures IsCpuSave(r.saves[j]) {
        assert r.saves[j].key == StatMetrics[j];
      }
    }
  }

  lemma StatSavesCpu(lines: seq<string>)
    ensures forall i :: 0 <= i < |CaptureCpu(lines).saves| ==> IsCpuSave(CaptureCpu(lines).saves[i])
  {
    forall line ensures forall i :: 0 <= i < |CpuLine(line).saves| ==> IsCpuSave(CpuLine(line).saves[i]) {
      CpuFieldsCpu(Fields(line));
    }
    RunLinesSaves(CpuLine, lines, IsCpuSave);
  }

  lemma ThenMemoryFirst(a: Capture, b: Capture)
    requires forall i :: 0 <= i < |a.saves| ==> IsMemorySave(a.saves[i])
    requires forall i :: 0 <= i < |b.saves| ==> IsCpuSave(b.saves[i])
    ensures MemoryFirst(Then(a, b).saves)
  {
    var s := Then(a, b).saves;
    if a.status.Done? {
      forall i, j | 0 <= i < j < |s| && IsCpuSave(s[i]) ensures IsCpuSave(s[j]) {
        assert s[j] == b.saves[j - |a.saves|];
      }
    }
  }

  /** Memory is always saved before CPU: once a CPU counter has been saved,
      every later save is a CPU counter too, on either path. */
  lemma CollectMemoryBeforeCpu(env: Env)
    ensures MemoryFirst(Collect(env).saves)
  {
    match env.procRoot {
      case Err(_) =>
      case Ok(false) =>
        if env.psOutput.Ok? {
          PsMemoryFirst(env.psOutput.value);
        }
      case Ok(true) =>
        if env.statusFile.Ok? {
          StatusSavesMemory(env.statusFile.value);
        }
        if env.statFile.Ok? {
          StatSavesCpu(env.statFile.value);
        }
        ThenMemoryFirst(Parse(env.statusFile, CaptureVm), Parse(env.statFile, CaptureCpu));
    }
  }


  /** Without a proc root only the `ps` output is consulted: the status and
      stat files make no difference, and no children's counter is saved. */
  lemma CollectWithoutProcRoot(env: Env, env': Env)
    requires env.procRoot == Ok(false) && env'.procRoot == Ok(false)
    requires env.psOutput == env'.psOutput
    ensures Collect(env) == Collect(env')
    ensures forall i :: 0 <= i < |Collect(env).saves| ==>
      Collect(env).saves[i].key !in {CpuTotalUser, CpuTotalSystem}
  {
    if env.psOutput.Ok? {
      var r := CapturePs(env.psOutput.value);
      forall i | 0 <= i < |r.saves|
        ensures r.saves[i].key !in {CpuTotalUser, CpuTotalSystem}
      {
        assert r.saves[i].key == PsOrder[i];
      }
    }
  }

  /** With a proc root the `ps` output is never consulted, and the stat file
      is read only when the status capture returned nil. */
  lemma CollectWithProcRoot(env: Env, env': Env)
    requires env.procRoot == Ok(true) && env'.procRoot == Ok(true)
    requires env.statusFile == env'.statusFile
    ensures env.statFile == env'.statFile ==> Collect(env) == Collect(env')
    ensures !Parse(env.statusFile, CaptureVm).status.Done? ==>
      Collect(env) == Collect(env') == Parse(env.statusFile, CaptureVm)
  {
  }

  /** Errors reach the caller unchanged: a failed probe or read is returned
      as it came, with nothing saved after it; the error or panic of a
      capture is the outcome of `Collect`, with the saves made before it;
      and `Collect` returns nil exactly when every step it ran did. */
  lemma CollectPropagatesErrors(env: Env)
    ensures env.procRoot.Err? ==> Collect(env) == Capture([], Failed(env.procRoot.error))
    ensures env.procRoot == Ok(false) && env.psOutput.Err? ==>
      Collect(env) == Capture([], Failed(env.psOutput.error))
    ensures env.procRoot == Ok(false) && env.psOutput.Ok? ==>
      Collect(env) == CapturePs(env.psOutput.value)
    ensures env.procRoot == Ok(true) && env.statusFile.Err? ==>
      Collect(env) == Capture([], Failed(env.statusFile.error))
    ensures env.procRoot == Ok(true) && env.statusFile.Ok? && !CaptureVm(env.statusFile.value).status.Done? ==>
      Collect(env) == CaptureVm(env.statusFile.value)
    ensures (env.procRoot == Ok(true) && env.statusFile.Ok? && CaptureVm(env.statusFile.value).status.Done? &&
      env.statFile.Err?) ==>
      Collect(env) == Capture(CaptureVm(env.statusFile.value).saves, Failed(env.statFile.error))
    ensures (env.procRoot == Ok(true) && env.statusFile.Ok? && CaptureVm(env.statusFile.value).status.Done? &&
      env.statFile.Ok?) ==>
      Collect(env) == Capture(CaptureVm(env.statusFile.value).saves + CaptureCpu(env.statFile.value).saves,
                              CaptureCpu(env.statFile.value).status)
    ensures Collect(env).status.Done? <==>
      || (env.procRoot == Ok(false) && env.psOutput.Ok? && CapturePs(env.psOutput.value).status.Done?)
      || (&& env.procRoot == Ok(true)
          && env.statusFile.Ok? && CaptureVm(env.statusFile.value).status.Done?
          && env.statFile.Ok? && CaptureCpu(env.statFile.value).status.Done?)
  {
    if env.procRoot == Ok(true) && env.statusFile.Ok? && CaptureVm(env.statusFile.value).status.Done? &&
       env.statFile.Err? {
      assert CaptureVm(env.statusFile.value).saves + [] == CaptureVm(env.statusFile.value).saves;
    }
  }
}

=== FILE: sampling.dfy ===
/** The outcome of one capture: the saves it issued, in order, and how it
    ended. Saves issued before a failure stay issued, as they do in the
    store. */
module Sampling {
  import Strconv
  import opened Store

  /** The errors a capture returns: a strconv failure, or an I/O failure
      reported by the file system or by `ps` (kept as its message). */
  datatype Error = ParseError(num: Strconv.NumError) | IoError(cause: string)

  /** A Go runtime panic: indexing a slice or string past its length. */
  datatype RuntimePanic = IndexOutOfRange(index: nat, length: nat)

  /** Returned nil, returned an error, or panicked. */
  datatype Status = Done | Failed(err: Error) | Panicked(panic: RuntimePanic)

  datatype Capture = Capture(saves: seq<Save>, status: Status)

  /** Run `a`, then `b` only if `a` returned nil. */
  function Then(a: Capture, b: Capture): (r: Capture)
    ensures r.status.Done? <==> a.status.Done? && b.status.Done?
    ensures !a.status.Done? ==> r == a
    ensures a.status.Done? ==> |r.saves| == |a.saves| + |b.saves| && r.status == b.status
    ensures a.status.Done? ==> r.saves[..|a.saves|] == a.saves && r.saves[|a.saves|..] == b.saves
  {
    if a.status.Done? then Capture(a.saves + b.saves, b.status) else a
  }

  lemma ThenAssoc(a: Capture, b: Capture, c: Capture)
    ensures Then(Then(a, b), c) == Then(a, Then(b, c))
  {
    if a.status.Done? && b.status.Done? {
      assert (a.saves + b.saves) + c.saves == a.saves + (b.saves + c.saves);
    }
  }

  /** The `for _, line := range lines` loop: one step per line, stopping at
      the first line whose step does not return nil. */
  function RunLines(step: string -> Capture, lines: seq<string>): (r: Capture)
    ensures r.status.Done? <==> forall i :: 0 <= i < |lines| ==> step(lines[i]).status.Done?
    ensures !r.status.Done? ==> r.status == step(lines[FirstStop(step, lines)]).status
    decreases |lines|
  {
    if lines == [] then Capture([], Done)
    else
      var tail := RunLines(step, lines[1..]);
      assert forall i :: 1 <= i < |lines| ==> lines[i] == lines[1..][i - 1];
      Then(step(lines[0]), tail)
  }

  /** Running two blocks of lines is running the first, then the second. */
  lemma {:induction false} RunLinesAppend(step: string -> Capture, a: seq<string>, b: seq<string>)
    ensures RunLines(step, a + b) == Then(RunLines(step, a), RunLines(step, b))
    decreases |a|
  {
    if a == [] {
      assert a + b == b;
      assert [] + RunLines(step, b).saves == RunLines(step, b).saves;
    } else {
      assert (a + b)[0] == a[0];
      assert (a + b)[1..] == a[1..] + b;
      RunLinesAppend(step, a[1..], b);
      ThenAssoc(step(a[0]), RunLines(step, a[1..]), RunLines(step, b));
    }
  }

  /** The first line whose step does not return nil; `|lines|` when there
      is none. */
  function FirstStop(step: string -> Capture, lines: seq<string>): (k: nat)
    ensures k <= |lines|
    ensures forall i :: 0 <= i < k ==> step(lines[i]).status.Done?
    ensures k < |lines| ==> !step(lines[k]).status.Done?
    decreases |lines|
  {
    if lines == [] then 0
    else if !step(lines[0]).status.Done? then 0
    else 1 + FirstStop(step, lines[1..])
  }

  /** The loop runs to the end exactly when no line stops it, and otherwise
      stops at the first line that does: every earlier line returned nil,
      and the saves are those of the earlier lines followed by that line's. */
  lemma {:induction false} RunLinesStops(step: string -> Capture, lines: seq<string>)
    ensures var k := FirstStop(step, lines);
      && (RunLines(step, lines).status.Done? <==> k == |lines|)
      && (k < |lines| ==> StopsAt(step, lines, k))
    decreases |lines|
  {
    if lines != [] {
      var head := step(lines[0]);
      if !head.status.Done? {
        assert lines[..0] == [];
        assert [] + head.saves == head.saves;
      } else {
        RunLinesStops(step, lines[1..]);
        if FirstStop(step, lines[1..]) < |lines[1..]| {
          StopsAtNext(step, lines, FirstStop(step, lines[1..]));
        }
      }
    }
  }

  /** A stop in the tail, after a first line that returned nil, is a stop
      one line later in the whole. */
  lemma StopsAtNext(step: string -> Capture, lines: seq<string>, k: nat)
    requires |lines| >= 1 && step(lines[0]).status.Done?
    requires k < |lines| - 1 && StopsAt(step, lines[1..], k)
    ensures StopsAt(step, lines, k + 1)
  {
    var head := step(lines[0]);
    var tail := lines[1..];
    var before := RunLines(step, tail[..k]);
    var last := step(tail[k]);
    assert RunLines(step, lines[..k + 1]) == Capture(head.saves + before.saves, Done) by {
      assert lines[..k + 1][0] == lines[0] && lines[..k + 1][1..] == tail[..k];
    }
    assert step(lines[k + 1]) == last by {
      assert lines[k + 1] == tail[k];
    }
    assert head.saves + (before.saves + last.saves) == (head.saves + before.saves) + last.saves;
  }

  ghost predicate StopsAt(step: string -> Capture, lines: seq<string>, k: int)
    requires 0 <= k < |lines|
  {
    var before := RunLines(step, lines[..k]);
    var last := step(lines[k]);
    && before.status.Done?
    && !last.status.Done?
    && RunLines(step, lines) == Capture(before.saves + last.saves, last.status)
  }

  /** A property of single saves holds of every save of the loop when it
      holds of every save of every step. */
  lemma {:induction false} RunLinesSaves(step: string -> Capture, lines: seq<string>, P: Save -> bool)
    requires forall line :: forall i :: 0 <= i < |step(line).saves| ==> P(step(line).saves[i])
    ensures forall i :: 0 <= i < |RunLines(step, lines).saves| ==> P(RunLines(step, lines).saves[i])
    decreases |lines|
  {
    if lines != [] {
      RunLinesSaves(step, lines[1..], P);
    }
  }
}

=== FILE: scenarios.dfy ===
/** The parsers on the inputs they are written for: files and command
    output laid out as the kernel and `ps` print them. */
module Scenarios {
  import opened Wrappers
  import opened FixedWidth
  import opened Text
  import opened Strconv
  import opened Duration
  import opened Store
  import opened Sampling
  import opened Process

  lemma DurationPlain()
    ensures DurationTicks("0:05.00") == Some(500)
  {
    ClockTextTicks(0, 5, '.', 0);
    assert ClockText(0, 5, '.', 0) == "0:05.00";
  }

  /** Seconds above 59 are taken as they are. */
  lemma DurationSecondsAbove59()
    ensures DurationTicks("1:75.00") == Some(13500)
  {
    ClockTextTicks(1, 75, '.', 0);
    assert ClockText(1, 75, '.', 0) == "1:75.00";
  }

  /** Any character may separate seconds from centiseconds. */
  lemma DurationAnySeparator()
    ensures DurationTicks("12:00x07") == Some(72007)
  {
    ClockTextTicks(12, 0, 'x', 7);
    assert FormatNat(12) == "12";
    assert ClockText(12, 0, 'x', 7) == "12:00x07";
  }

  lemma DurationRejectsShortSeconds()
    ensures DurationTicks("0:5.00") == None
  {
  }

  lemma DurationRejectsLetterMinutes()
    ensures DurationTicks("a:05.00") == None
  {
    assert "a:05.00"[..1] == "a";
  }

  /** A KB figure small enough that 1024 times it fits in an int64. */
  predicate FitsInBytes(kb: nat) {
    kb <= MaxInt64 / 1024
  }

  lemma ParseRendered(n: nat)
    requires n <= MaxInt64
    ensures ParseInt(FormatNat(n)) == Ok(n as int)
  {
    ParseFormatInt(n);
  }

  /** A field rendered from a KB figure is saved in bytes. */
  lemma MemoryFieldRendered(f: seq<string>, i: nat, key: Key, kb: nat)
    requires i < |f| && f[i] == FormatNat(kb) && FitsInBytes(kb)
    ensures MemoryField(f, i, key) == Capture([Save(key, 1024 * kb)], Done)
  {
    ParseRendered(kb);
  }

  lemma PsMemoryRendered(f: seq<string>, rss: nat, vsz: nat)
    requires |f| >= 2 && f[0] == FormatNat(rss) && f[1] == FormatNat(vsz)
    requires FitsInBytes(rss) && FitsInBytes(vsz)
    ensures PsMemory(f) == Capture([Save(MemoryRss, 1024 * rss), Save(MemoryVsz, 1024 * vsz)], Done)
  {
    MemoryFieldRendered(f, 0, MemoryRss, rss);
    MemoryFieldRendered(f, 1, MemoryVsz, vsz);
  }

  lemma PsCpuTicks(f: seq<string>, total: nat, user: nat)
    requires |f| >= 4 && DurationTicks(f[2]) == Some(total) && DurationTicks(f[3]) == Some(user)
    ensures PsCpu(f) == Capture([Save(CpuUser, user), Save(CpuSystem, total - user)], Done)
  {
    CpuTimesSaves(|f|, TicksAt(f, 2), TicksAt(f, 3));
  }

  /** The fallback on a data line whose fields are two KB figures and two
      matching CPU times. */
  lemma PsFromFields(lines: seq<string>, f: seq<string>, rss: nat, vsz: nat, total: nat, user: nat)
    requires |lines| >= 2 && Fields(lines[1]) == f && |f| >= 4
    requires f[0] == FormatNat(rss) && f[1] == FormatNat(vsz)
    requires DurationTicks(f[2]) == Some(total) && DurationTicks(f[3]) == Some(user)
    requires FitsInBytes(rss) && FitsInBytes(vsz)
    ensures CapturePs(lines) ==
      Capture([Save(MemoryRss, 1024 * rss), Save(MemoryVsz, 1024 * vsz),
               Save(CpuUser, user), Save(CpuSystem, total - user)], Done)
  {
    var m := Capture([Save(MemoryRss, 1024 * rss), Save(MemoryVsz, 1024 * vsz)], Done);
    var c := Capture([Save(CpuUser, user), Save(CpuSystem, total - user)], Done);
    PsMemoryRendered(f, rss, vsz);
    PsCpuTicks(f, total, user);
    assert m.saves + c.saves == [Save(MemoryRss, 1024 * rss), Save(MemoryVsz, 1024 * vsz),
                                 Save(CpuUser, user), Save(CpuSystem, total - user)];
  }

  /** A `ps` data line whose words are rss and vsz in KB and two CPU times
      worth `total` and `user` ticks: the fallback saves the bytes, the user
      ticks, and the total less the user ticks, and returns nil. Which texts
      are worth how many ticks is `Duration.ClockTextTicks`. */
  lemma PsRendered(header: string, ws: seq<string>, rss: nat, vsz: nat, total: nat, user: nat)
    requires |ws| == 4 && forall i :: 0 <= i < |ws| ==> ws[i] != [] && NoSpace(ws[i])
    requires FitsInBytes(rss) && FitsInBytes(vsz)
    requires ws[0] == FormatNat(rss) && ws[1] == FormatNat(vsz)
    requires DurationTicks(ws[2]) == Some(total) && DurationTicks(ws[3]) == Some(user)
    ensures CapturePs([header, JoinWords(ws)]) ==
      Capture([Save(MemoryRss, 1024 * rss), Save(MemoryVsz, 1024 * vsz),
               Save(CpuUser, user), Save(CpuSystem, total - user)], Done)
  {
    FieldsOfJoinWords(ws);
    var lines := [header, JoinWords(ws)];
    assert Fields(lines[1]) == ws;
    PsFromFields(lines, ws, rss, vsz, total, user);
  }

  /** A status line `VmRSS:` or `VmSize:`, blanks, a KB figure and a unit:
      one save of the figure in bytes to the gauge the label names. */
  lemma StatusLineRendered(field: string, sp: string, kb: nat, unit: string)
    requires field == "VmRSS:" || field == "VmSize:"
    requires sp != [] && forall i :: 0 <= i < |sp| ==> IsSpace(sp[i])
    requires unit != [] && NoSpace(unit)
    requires FitsInBytes(kb)
    ensures VmLine(field + sp + FormatNat(kb) + " " + unit) ==
      Capture([Save(if field == "VmRSS:" then MemoryRss else MemoryVsz, 1024 * kb)], Done)
  {
    var digits := FormatNat(kb);
    var line := field + sp + digits + " " + unit;
    DigitsHaveNoSpace(digits);
    assert NoSpace(field);
    assert line == field + sp + (digits + " " + unit);
    FieldsAfterWord(field, sp, digits + " " + unit);
    FieldsAfterWord(digits, " ", unit);
    FieldsOfWord(unit);
    var f := Fields(line);
    assert f == [field, digits, unit];
    assert line[0] == 'V';
    MemoryFieldRendered(f, 1, if field == "VmRSS:" then MemoryRss else MemoryVsz, kb);
  }

  /** The figure of the kernel status line, rendered digit by digit. */
  lemma FormatKernelFigure()
    ensures FormatNat(324072) == "324072"
  {
    assert FormatNat(3) == "3";
    assert FormatNat(32) == FormatNat(3) + "2" == "32";
    assert FormatNat(324) == FormatNat(32) + "4" == "324";
    assert FormatNat(3240) == FormatNat(324) + "0" == "3240";
    assert FormatNat(32407) == FormatNat(3240) + "7" == "32407";
    assert FormatNat(324072) == FormatNat(32407) + "2";
  }

  /** The resident size line of a status file, as the kernel prints it:
      324072 KB is saved as 324072*1024 bytes. */
  lemma StatusLineOfKernel()
    ensures VmLine("VmRSS:\t  324072 kB") == Capture([Save(MemoryRss, 324072 * 1024)], Done)
  {
    var kb := 324072;
    FormatKernelFigure();
    assert "VmRSS:\t  324072 kB" == "VmRSS:" + "\t  " + FormatNat(kb) + " " + "kB";
    StatusLineRendered("VmRSS:", "\t  ", kb, "kB");
  }

  /** A stat line of at least seventeen words whose words 13 to 16 are
      integers: the four values are saved unchanged, in order. */
  lemma StatLineOfIntegers(ws: seq<string>, utime: int, stime: int, cutime: int, cstime: int)
    requires |ws| >= 17 && forall i :: 0 <= i < |ws| ==> ws[i] != [] && NoSpace(ws[i])
    requires ParseInt(ws[13]) == Ok(utime) && ParseInt(ws[14]) == Ok(stime)
    requires ParseInt(ws[15]) == Ok(cutime) && ParseInt(ws[16]) == Ok(cstime)
    ensures CpuLine(JoinWords(ws)) ==
      Capture([Save(CpuUser, utime), Save(CpuSystem, stime),
               Save(CpuTotalUser, cutime), Save(CpuTotalSystem, cstime)], Done)
  {
    FieldsOfJoinWords(ws);
  }

  /** The same for tick counts printed in decimal, as the kernel does. */
  lemma StatLineRendered(ws: seq<string>, utime: nat, stime: nat, cutime: nat, cstime: nat)
    requires |ws| >= 17 && forall i :: 0 <= i < |ws| ==> ws[i] != [] && NoSpace(ws[i])
    requires ws[13] == FormatNat(utime) && ws[14] == FormatNat(stime)
    requires ws[15] == FormatNat(cutime) && ws[16] == FormatNat(cstime)
    requires utime <= MaxInt64 && stime <= MaxInt64 && cutime <= MaxInt64 && cstime <= MaxInt64
    ensures CpuLine(JoinWords(ws)) ==
      Capture([Save(CpuUser, utime), Save(CpuSystem, stime),
               Save(CpuTotalUser, cutime), Save(CpuTotalSystem, cstime)], Done)
  {
    ParseRendered(utime);
    ParseRendered(stime);
    ParseRendered(cutime);
    ParseRendered(cstime);
    StatLineOfIntegers(ws, utime, stime, cutime, cstime);
  }
}

=== FILE: store.dfy ===
/** The declarations a process store makes, and the saves it receives. The
    store's own bookkeeping (rates, transforms, lookups) is not modelled:
    a capture is described by the log of saves it issues. */
module Store {

  /** The six metrics of a process store. The store addresses each by a
      family and a metric name; `Family` and `Metric` give those strings. */
  datatype Key = MemoryRss | MemoryVsz | CpuUser | CpuSystem | CpuTotalUser | CpuTotalSystem {

    function Family(): string {
      if IsMemory() then "memory" else "cpu"
    }

    function Metric(): string {
      match this
      case MemoryRss => "rss"
      case MemoryVsz => "vsz"
      case CpuUser => "user"
      case CpuSystem => "system"
      case CpuTotalUser => "total_user"
      case CpuTotalSystem => "total_system"
    }

    predicate IsMemory() {
      MemoryRss? || MemoryVsz?
    }
  }

  /** No two keys share a family and metric name. */
  lemma KeyNamesDistinct(a: Key, b: Key)
    ensures a.Family() == b.Family() && a.Metric() == b.Metric() ==> a == b
  {
    if a != b && a.Family() == b.Family() {
      assert |a.Metric()| != |b.Metric()| || a.Metric()[0] != b.Metric()[0];
    }
  }

  datatype Kind = Gauge | Counter

  /** The transforms named at declaration time; their behaviour lives with
      the store and is not part of this model. */
  datatype Aggregator = NoAggregator | TickPercentage
  datatype Display = DisplayInMB | DisplayPercent

  datatype Declaration = Declaration(key: Key, kind: Kind, aggregator: Aggregator, display: Display)

  /** One call `save(family, metric, value)`. */
  datatype Save = Save(key: Key, value: int)

  /** The keys declared with kind `k`, in declaration order. */
  function KeysOfKind(ds: seq<Declaration>, k: Kind): seq<Key>
    decreases |ds|
  {
    if ds == [] then []
    else (if ds[0].kind == k then [ds[0].key] else []) + KeysOfKind(ds[1..], k)
  }

  /** The declarations `NewProcessStore` makes: exactly the two memory
      gauges, shown in MB, and exactly the four CPU counters, turned into
      tick percentages; no key is declared twice. */
  function ProcessDeclarations(): (ds: seq<Declaration>)
    ensures KeysOfKind(ds, Gauge) == [MemoryRss, MemoryVsz]
    ensures KeysOfKind(ds, Counter) == [CpuUser, CpuSystem, CpuTotalUser, CpuTotalSystem]
    ensures forall i, j :: 0 <= i < j < |ds| ==> ds[i].key != ds[j].key
    ensures forall i :: 0 <= i < |ds| && ds[i].kind == Gauge ==>
      ds[i].aggregator == NoAggregator && ds[i].display == DisplayInMB
    ensures forall i :: 0 <= i < |ds| && ds[i].kind == Counter ==>
      ds[i].aggregator == TickPercentage && ds[i].display == DisplayPercent
  {
    [
      Declaration(MemoryRss, Gauge, NoAggregator, DisplayInMB),
      Declaration(MemoryVsz, Gauge, NoAggregator, DisplayInMB),
      Declaration(CpuUser, Counter, TickPercentage, DisplayPercent),
      Declaration(CpuSystem, Counter, TickPercentage, DisplayPercent),
      Declaration(CpuTotalUser, Counter, TickPercentage, DisplayPercent),
      Declaration(CpuTotalSystem, Counter, TickPercentage, DisplayPercent)
    ]
  }

  /** The kind the process store declared a key with. */
  function KindOf(key: Key): (k: Kind)
    ensures key in KeysOfKind(ProcessDeclarations(), k)
  {
    var ds := ProcessDeclarations();
    if key.IsMemory() then
      assert KeysOfKind(ds, Gauge) == [MemoryRss, MemoryVsz];
      Gauge
    else
      assert KeysOfKind(ds, Counter) == [CpuUser, CpuSystem, CpuTotalUser, CpuTotalSystem];
      Counter
  }
}

=== FILE: strconv.dfy ===
/** The parts of Go's `strconv` package the process sampler relies on:
    decimal `ParseInt(s, 10, 64)` and `ParseUint(s, 10, bitSize)`. */
module Strconv {
  import opened Wrappers
  import opened FixedWidth
  import opened Text

  datatype ErrorKind = ErrSyntax | ErrRange

  /** Go's `*strconv.NumError`: the function that failed, its input, and why. */
  datatype NumError = NumError(func: string, num: string, err: ErrorKind)

  /** What `ParseUint` returns: a value, and the reason when it failed. On a
      range error the value is the largest one of the bit size, on a syntax
      error it is 0. */
  datatype Unsigned = Unsigned(value: nat, err: Option<ErrorKind>)

  /** The largest value of an unsigned integer of the given width; only the
      two widths the sampler uses are modelled. */
  function MaxUnsigned(bitSize: nat): (m: nat)
    requires bitSize == 32 || bitSize == 64
  {
    if bitSize == 32 then MaxUint32 else MaxUint64
  }

  /** The base-10 digit loop of `ParseUint`, with accumulator `n`: a non-digit
      is a syntax error, and a step that would exceed `maxVal` stops at once
      with a range error, whatever follows. */
  function Scan(s: string, n: nat, maxVal: nat): Unsigned
    decreases |s|
  {
    if s == [] then Unsigned(n, None)
    else if !IsDigit(s[0]) then Unsigned(0, Some(ErrSyntax))
    else if n * 10 + DigitValue(s[0]) > maxVal then Unsigned(maxVal, Some(ErrRange))
    else Scan(s[1..], n * 10 + DigitValue(s[0]), maxVal)
  }

  lemma {:induction false} ScanSpec(p: string, s: string, maxVal: nat)
    requires AllDigits(p) && DigitsValue(p) <= maxVal
    ensures var u := Scan(s, DigitsValue(p), maxVal);
      && (u.err == None <==> AllDigits(p + s) && DigitsValue(p + s) <= maxVal)
      && (u.err == None ==> u.value == DigitsValue(p + s))
      && (AllDigits(p + s) && DigitsValue(p + s) > maxVal ==> u == Unsigned(maxVal, Some(ErrRange)))
      && (u.err == Some(ErrRange) ==> u.value == maxVal)
      && (u.err == Some(ErrSyntax) ==> u.value == 0)
    decreases |s|
  {
    if s == [] {
      assert p + s == p;
    } else if !IsDigit(s[0]) {
      assert (p + s)[|p|] == s[0];
    } else {
      var p' := p + [s[0]];
      assert AllDigits(p') by {
        forall i | 0 <= i < |p'| ensures IsDigit(p'[i]) {
          if i < |p| { assert p'[i] == p[i]; }
        }
      }
      assert p'[..|p'| - 1] == p;
      assert DigitsValue(p') == DigitsValue(p) * 10 + DigitValue(s[0]);
      assert p' + s[1..] == p + s;
      if DigitsValue(p') > maxVal {
        if AllDigits(p + s) {
          assert AllDigits(s[1..]) by {
            forall i | 0 <= i < |s[1..]| ensures IsDigit(s[1..][i]) {
              assert s[1..][i] == (p + s)[|p| + 1 + i];
            }
          }
          DigitsValueGrows(p', s[1..]);
        }
      } else {
        ScanSpec(p', s[1..], maxVal);
      }
    }
  }

  /** `strconv.ParseUint(s, 10, bitSize)`. */
  function ParseUint(s: string, bitSize: nat): (r: Unsigned)
    requires bitSize == 32 || bitSize == 64
    ensures r.err == None <==> s != [] && AllDigits(s) && DigitsValue(s) <= MaxUnsigned(bitSize)
    ensures r.err == None ==> r.value == DigitsValue(s)
    ensures s != [] && AllDigits(s) && DigitsValue(s) > MaxUnsigned(bitSize) ==>
      r == Unsigned(MaxUnsigned(bitSize), Some(ErrRange))
    ensures r.err == Some(ErrRange) ==> r.value == MaxUnsigned(bitSize)
    ensures r.err == Some(ErrSyntax) ==> r.value == 0
  {
    if s == [] then Unsigned(0, Some(ErrSyntax))
    else
      var maxVal := MaxUnsigned(bitSize);
      assert [] + s == s;
      ScanSpec([], s, maxVal);
      Scan(s, 0, maxVal)
  }

  /** The digits of a literal after an optional leading sign. */
  function Magnitude(s: string): string
    requires s != []
  {
    if s[0] == '+' || s[0] == '-' then s[1..] else s
  }

  /** A decimal integer literal as `ParseInt` accepts it: an optional `+` or
      `-`, then one or more digits. */
  predicate IsIntLiteral(s: string) {
    s != [] && Magnitude(s) != [] && AllDigits(Magnitude(s))
  }

  function LiteralValue(s: string): int
    requires IsIntLiteral(s)
  {
    if s[0] == '-' then -(DigitsValue(Magnitude(s)) as int) else DigitsValue(Magnitude(s))
  }

  /** A literal whose value fits in an int64. */
  predicate IsInt64Literal(s: string) {
    IsIntLiteral(s) && InInt64(LiteralValue(s))
  }

  /** `strconv.ParseInt(s, 10, 64)`: succeeds exactly on integer literals whose
      value fits in an int64, with that value; a syntax error is reported
      only for non-literals, and a literal can fail only by range. */
  function ParseInt(s: string): (r: Result<int, NumError>)
    ensures r.Ok? <==> IsInt64Literal(s)
    ensures r.Ok? ==> r.value == LiteralValue(s)
    ensures r.Err? ==> r.error.func == "ParseInt" && r.error.num == s
    ensures r.Err? && r.error.err == ErrSyntax ==> !IsIntLiteral(s)
    ensures r.Err? && IsIntLiteral(s) ==> r.error.err == ErrRange
  {
    if s == [] then Err(NumError("ParseInt", s, ErrSyntax))
    else
      var neg := s[0] == '-';
      var u := ParseUint(Magnitude(s), 64);
      match u.err
      case Some(ErrSyntax) => Err(NumError("ParseInt", s, ErrSyntax))
      case _ =>
        if !neg && u.value >= Pow63 then Err(NumError("ParseInt", s, ErrRange))
        else if neg && u.value > Pow63 then Err(NumError("ParseInt", s, ErrRange))
        else Ok(if neg then -(u.value as int) else u.value)
  }

  /** `strconv.FormatInt(v, 10)`. */
  function FormatInt(v: int): string {
    if v < 0 then "-" + FormatNat(-v) else FormatNat(v)
  }

  /** Every int64 survives rendering and parsing back. */
  lemma ParseFormatInt(v: int)
    requires InInt64(v)
    ensures ParseInt(FormatInt(v)) == Ok(v)
  {
    var s := FormatInt(v);
    if v < 0 {
      assert Magnitude(s) == FormatNat(-v);
    } else {
      assert Magnitude(s) == FormatNat(v);
    }
  }
}

=== FILE: text.dfy ===
/** Character classes and Go's `strings.Fields`, over strings as sequences of
    Unicode characters. */
module Text {

  /** Go's `unicode.IsSpace`: the ASCII blanks plus the Unicode White_Space
      characters outside ASCII. */
  predicate IsSpace(c: char) {
    || c == ' ' || c == '\t' || c == '\n' || c == '\U{B}' || c == '\U{C}' || c == '\r'
    || c == '\U{85}' || c == '\U{A0}' || c == '\U{1680}'
    || ('\U{2000}' <= c <= '\U{200A}')
    || c == '\U{2028}' || c == '\U{2029}' || c == '\U{202F}' || c == '\U{205F}'
    || c == '\U{3000}'
  }

  predicate NoSpace(s: string) {
    forall i :: 0 <= i < |s| ==> !IsSpace(s[i])
  }

  /** A decimal digit as matched by `\d` (ASCII only) and accepted by strconv. */
  predicate IsDigit(c: char) {
    '0' <= c <= '9'
  }

  predicate AllDigits(s: string) {
    forall i :: 0 <= i < |s| ==> IsDigit(s[i])
  }

  function DigitValue(c: char): (d: nat)
    requires IsDigit(c)
    ensures d < 10
  {
    c as int - '0' as int
  }

  function DigitChar(d: nat): (c: char)
    requires d < 10
    ensures IsDigit(c) && DigitValue(c) == d
  {
    ('0' as int + d) as char
  }

  /** The number a digit string denotes in base 10 (leading zeros allowed). */
  function DigitsValue(s: string): nat
    requires AllDigits(s)
  {
    if s == [] then 0 else DigitsValue(s[..|s| - 1]) * 10 + DigitValue(s[|s| - 1])
  }

  /** Extending a digit string on the right never lowers its value. */
  lemma {:induction false} DigitsValueGrows(p: string, s: string)
    requires AllDigits(p) && AllDigits(s)
    ensures AllDigits(p + s)
    ensures DigitsValue(p + s) >= DigitsValue(p)
    decreases |s|
  {
    assert AllDigits(p + s) by {
      forall i | 0 <= i < |p + s| ensures IsDigit((p + s)[i]) {
        if i < |p| { assert (p + s)[i] == p[i]; } else { assert (p + s)[i] == s[i - |p|]; }
      }
    }
    if s != [] {
      var s' := s[..|s| - 1];
      assert (p + s)[..|p + s| - 1] == p + s';
      DigitsValueGrows(p, s');
      assert DigitsValue(p + s) == DigitsValue(p + s') * 10 + DigitValue((p + s)[|p + s| - 1]);
    } else {
      assert p + s == p;
    }
  }

  lemma DigitsHaveNoSpace(s: string)
    requires AllDigits(s)
    ensures NoSpace(s)
  {
  }

  /** The value of a two-digit string, digit by digit. */
  lemma TwoDigitsValue(s: string)
    requires |s| == 2 && AllDigits(s)
    ensures DigitsValue(s) == DigitValue(s[0]) * 10 + DigitValue(s[1]) < 100
  {
    assert s[..1][..0] == [];
    assert DigitsValue(s[..1]) == DigitValue(s[0]);
  }

  /** The shortest decimal rendering of a natural number (`strconv.Itoa`). */
  function FormatNat(n: nat): (s: string)
    ensures s != [] && AllDigits(s)
    ensures DigitsValue(s) == n
  {
    if n < 10 then [DigitChar(n)]
    else
      var p := FormatNat(n / 10);
      var s := p + [DigitChar(n % 10)];
      assert s[..|s| - 1] == p;
      s
  }

  /** Length of the run of non-space characters that starts `s`. */
  function WordLen(s: string): (n: nat)
    ensures n <= |s|
    ensures NoSpace(s[..n])
    ensures n < |s| ==> IsSpace(s[n])
  {
    if s == [] || IsSpace(s[0]) then 0 else 1 + WordLen(s[1..])
  }

  /** The characters of `s` that are not white space, in order. */
  function RemoveSpaces(s: string): string {
    if s == [] then []
    else (if IsSpace(s[0]) then [] else [s[0]]) + RemoveSpaces(s[1..])
  }

  function Concat(ws: seq<string>): string {
    if ws == [] then [] else ws[0] + Concat(ws[1..])
  }

  /** Words separated by single blanks: the inverse of `Fields` on
      space-free, non-empty words. */
  function JoinWords(ws: seq<string>): string {
    if ws == [] then []
    else if |ws| == 1 then ws[0]
    else ws[0] + " " + JoinWords(ws[1..])
  }

  lemma {:induction false} RemoveSpacesAppend(a: string, b: string)
    ensures RemoveSpaces(a + b) == RemoveSpaces(a) + RemoveSpaces(b)
    decreases |a|
  {
    if a != [] {
      assert (a + b)[1..] == a[1..] + b;
      RemoveSpacesAppend(a[1..], b);
    } else {
      assert a + b == b;
    }
  }

  lemma {:induction false} RemoveSpacesOfWord(w: string)
    requires NoSpace(w)
    ensures RemoveSpaces(w) == w
    decreases |w|
  {
    if w != [] {
      RemoveSpacesOfWord(w[1..]);
    }
  }

  /** Go's `strings.Fields`: the maximal runs of non-space characters of `s`.
      Every field is non-empty and space-free, and together the fields hold
      exactly the non-space characters of `s`, in order. */
  function Fields(s: string): (r: seq<string>)
    ensures forall i :: 0 <= i < |r| ==> r[i] != [] && NoSpace(r[i])
    ensures Concat(r) == RemoveSpaces(s)
    decreases |s|
  {
    if s == [] then []
    else if IsSpace(s[0]) then Fields(s[1..])
    else
      var n := WordLen(s);
      var rest := Fields(s[n..]);
      var r := [s[..n]] + rest;
      assert r[1..] == rest;
      assert s == s[..n] + s[n..];
      RemoveSpacesAppend(s[..n], s[n..]);
      RemoveSpacesOfWord(s[..n]);
      r
  }

  /** A string that starts with a non-space character has a first field,
      and that field starts the string. */
  lemma FieldsOfWordStart(s: string)
    requires s != [] && !IsSpace(s[0])
    ensures Fields(s) != [] && Fields(s)[0] == s[..WordLen(s)]
  {
  }

  lemma {:induction false} WordLenOfWord(w: string, t: string)
    requires NoSpace(w)
    requires t == [] || IsSpace(t[0])
    ensures WordLen(w + t) == |w|
    decreases |w|
  {
    if w == [] {
      assert w + t == t;
    } else {
      assert (w + t)[1..] == w[1..] + t;
      WordLenOfWord(w[1..], t);
    }
  }

  /** Splitting blank-joined words gives the words back. */
  lemma {:induction false} FieldsOfJoinWords(ws: seq<string>)
    requires forall i :: 0 <= i < |ws| ==> ws[i] != [] && NoSpace(ws[i])
    ensures Fields(JoinWords(ws)) == ws
    decreases |ws|
  {
    if ws == [] {
    } else if |ws| == 1 {
      var w := ws[0];
      WordLenOfWord(w, []);
      assert w + [] == w;
      assert w[|w|..] == [];
    } else {
      var w := ws[0];
      var t := " " + JoinWords(ws[1..]);
      var s := w + t;
      assert JoinWords(ws) == s;
      WordLenOfWord(w, t);
      assert s[..|w|] == w;
      assert s[|w|..] == t;
      assert t[1..] == JoinWords(ws[1..]);
      FieldsOfJoinWords(ws[1..]);
      assert Fields(t) == Fields(JoinWords(ws[1..]));
      assert [w] + ws[1..] == ws;
    }
  }

  /** A word followed by a run of blanks is the first field, and the fields
      of what follows come after it. */
  lemma FieldsAfterWord(w: string, sp: string, rest: string)
    requires w != [] && NoSpace(w)
    requires sp != [] && forall i :: 0 <= i < |sp| ==> IsSpace(sp[i])
    ensures Fields(w + sp + rest) == [w] + Fields(rest)
  {
    var s := w + sp + rest;
    assert s == w + (sp + rest);
    WordLenOfWord(w, sp + rest);
    assert s[..|w|] == w;
    assert s[|w|..] == sp + rest;
    FieldsSkipsLeadingSpace(sp, rest);
  }

  /** A lone word is its own only field. */
  lemma FieldsOfWord(w: string)
    requires w != [] && NoSpace(w)
    ensures Fields(w) == [w]
  {
    WordLenOfWord(w, []);
    assert w + [] == w;
    assert w[|w|..] == [];
  }

  /** Leading white space never changes the fields. */
  lemma {:induction false} FieldsSkipsLeadingSpace(sp: string, s: string)
    requires forall i :: 0 <= i < |sp| ==> IsSpace(sp[i])
    ensures Fields(sp + s) == Fields(s)
    decreases |sp|
  {
    if sp == [] {
      assert sp + s == s;
    } else {
      assert (sp + s)[1..] == sp[1..] + s;
      FieldsSkipsLeadingSpace(sp[1..], s);
    }
  }
}

=== FILE: wrappers.dfy ===
/** Option and Result datatypes used to model Go's `(value, error)` returns. */
module Wrappers {

  /** A value that may be absent, e.g. a regular-expression match that failed. */
  datatype Option<+T> = None | Some(value: T)

  /** Either a value or the error a Go function returned alongside it. */
  datatype Result<+T, +E> = Ok(value: T) | Err(error: E)
}
